=== FILE: README.md ===
# STM32F4 firmware structure recovery, modelled in Dafny

This project models `scripts/stm32f4x-firmware.py`, a disassembler script that
recovers structure from a raw STM32F4 (Cortex-M4, Thumb) ROM image loaded
without headers or symbols. The script:

- reads the initial stack pointer and the reset vector from the vector table;
- marks the T bit (Thumb mode) with `set_t`;
- hands the reset entry to auto-analysis;
- runs a fixpoint loop. Each pass finds literal pools with `get_literal_pools` and
  marks the address just past each pool's end as code;
- confirms detected strings as string literals with `create_string_literals`;
- links `LDR` instructions to the strings they load, using
  `get_ldr_psudo_instructions` and the data-reference loop.

The disassembler database is an immutable value, `Backend.State`. It holds
flags in the disassembler's bit layout (`FF_CODE`, `FF_UNK`, `FF_REF = 4096`),
item sizes, mnemonics, the resolved immediate of each instruction and the
T register. The loaded bytes and the detected string list are a separate,
read-only `Backend.Image`.

Every request whose outcome the disassembler decides is a function-valued field
of `Backend.Host`: `auto_make_code` followed by `auto_wait`, `auto_make_proc`
followed by `auto_wait`, `create_dword`, `create_strlit` and `add_dref`. The one
promise always made about auto-analysis is `Host.Monotone`: it never stops an
address being code. Completeness statements about the fixpoint loop also assume
`Host.SettlesExactly`: an unexplored address handed to auto-analysis becomes
code, and no other address changes between unexplored and explored.

Modules follow the script's pieces:

- `Backend`: database, image, host, and the item-size walk both scanners use.
- `TBit`: `set_t`.
- `VectorTable`: `get_dword` and the reset entry.
- `StringLiterals`: `has_string_entry` and `create_string_literals`.
- `LiteralPools`: `get_literal_pools`.
- `Promotion`: the fixpoint loop.
- `DataReferences`: `get_ldr_psudo_instructions` and the linking loop.
- `Firmware`: the top level.

## Model

| member | source | states |
|---|---|---|
| TBit.SetT | scripts/stm32f4x-firmware.py:190-200 | If the T register at the address is already nonzero, the database is unchanged. Otherwise T there becomes 1. No other address's T register changes, and flags, sizes, mnemonics and immediates are untouched. |
| TBit.SetTLeavesThumb | scripts/stm32f4x-firmware.py:199-200 | After any call, the T register at the address is nonzero. |
| TBit.SetTIdempotent | scripts/stm32f4x-firmware.py:199-200 | A second call on the same address, with any value, leaves the database exactly as the first call left it (first write wins). |
| TBit.SetTIgnoresValue | scripts/stm32f4x-firmware.py:190-200 | The result does not depend on the `value` argument. |
| TBit.SetTArmRequestGivesThumb | scripts/stm32f4x-firmware.py:199-200 | An ARM request (value 0) on an unset address still records T = 1. |
| VectorTable.LE32Bytes | scripts/stm32f4x-firmware.py:211-212 | The dword read at an address is below 2^32, and its four bytes, least significant first, are the image bytes at a .. a+3. |
| VectorTable.GetDword | scripts/stm32f4x-firmware.py:140-154 | Returns the little-endian dword at the address, byte by byte. When the item there is shorter than four bytes, the database afterwards is the one `create_dword` produces at that address. Otherwise no dword is created and the database is unchanged. |
| VectorTable.ResetEntry | scripts/stm32f4x-firmware.py:214-217 | The entry address is even and agrees with the reset vector in every bit except bit 0. Entry plus the Thumb bit equals the reset vector, so Thumb holds exactly when bit 0 is set. |
| VectorTable.VectorExample | scripts/stm32f4x-firmware.py:206-217 | For the bytes `00 00 02 20 01 08 00 08` at 0x08000000: the stack pointer is 0x20020000, the reset vector is 0x08000801, and the entry is 0x08000800 in Thumb mode. |
| StringLiterals.Cache | scripts/stm32f4x-firmware.py:47-54 | The cache has a key exactly for the start of each detected string. Its value is the length of the LAST span with that start, as when a dictionary is filled in list order. |
| StringLiterals.HasStringEntry | scripts/stm32f4x-firmware.py:32-54 | An address is a string entry exactly when the last detected string starting there has a nonzero length. This is stated through the last-span witness, not through the cache dictionary. |
| StringLiterals.NoSpanNoEntry | scripts/stm32f4x-firmware.py:51-54 | An address where no detected string starts is not a string entry (the `KeyError` path). |
| StringLiterals.ZeroLengthIsNoEntry | scripts/stm32f4x-firmware.py:115-118 | A cached length of 0 is falsy, so that address does not count as a string. |
| StringLiterals.Acceptable | scripts/stm32f4x-firmware.py:73-78 | A detected string passes both checks exactly when it is at least two bytes long, its last byte is NUL, and every byte before that is LF, CR or in 0x20..0x7E. |
| StringLiterals.AcceptableHasOneNul | scripts/stm32f4x-firmware.py:26 | An accepted span is at least two bytes long, ends in NUL and has no NUL before its last byte. |
| StringLiterals.StrlitLoopSound | scripts/stm32f4x-firmware.py:69-82 | The loop marks only starts of acceptable spans whose `create_strlit` request can succeed (`MarkableStarts`): a start is added only when the request returned a database. |
| StringLiterals.StrlitLoopComplete | scripts/stm32f4x-firmware.py:69-82 | When every `create_strlit` succeeds, the loop marks exactly the acceptable spans' starts. |
| StringLiterals.StrlitLoopIdle | scripts/stm32f4x-firmware.py:69-82 | A loop that marks nothing leaves the database unchanged: a request that fails changes nothing. |
| StringLiterals.CreateStrings | scripts/stm32f4x-firmware.py:69-82 | Every marked address starts a span that is NUL-terminated and whose content matches the character set, and whose `create_strlit` request can succeed (a start is recorded only on success, lines 79-80). When every `create_strlit` succeeds, exactly those spans' starts are marked. When no span qualifies, no request is sent and the database is unchanged. |
| StringLiterals.CreateStringLiterals | scripts/stm32f4x-firmware.py:57-82 | Over the disassembler's own string list: every confirmed address is the start of a listed span that passes both string checks and whose `create_strlit` request can succeed ("addresses successfully marked"), and when `create_strlit` always succeeds the confirmed set is exactly those starts. When no listed span is acceptable, nothing is confirmed and the database is unchanged. Whenever nothing is confirmed, the database is unchanged. |
| StringLiterals.HelloExample | scripts/stm32f4x-firmware.py:72-78 | `Hello\0` passes both checks. The same span ending in 0x01 fails. |
| StringLiterals.HelloMarked | scripts/stm32f4x-firmware.py:69-82 | When `create_strlit` always succeeds, `Hello\0` is marked and the 0x01-terminated span is not. |
| LiteralPools.NearestInsn | scripts/stm32f4x-firmware.py:123-127 | When found, the result is the highest address not above the start and not below the bound whose mnemonic is non-empty: every address between it and the start has an empty mnemonic. When nothing is found, the whole searched range has empty mnemonics. |
| LiteralPools.ScanShape | scripts/stm32f4x-firmware.py:100-137 | The scan only appends: the pools found before the current address stay a prefix of the result, and every entry it adds is an address the item-size walk visits. |
| LiteralPools.ScanIncreasing | scripts/stm32f4x-firmware.py:133-135 | Started from an increasing list below the current address, the scan's list stays strictly increasing, so no address is appended twice. |
| LiteralPools.ScanHead | scripts/stm32f4x-firmware.py:120-134 | The current address ends up in the pool list exactly when the step accepts it. Whether `c - 4` is in the final list is decided by the pools already found. |
| LiteralPools.ScanMembership | scripts/stm32f4x-firmware.py:100-135 | A walked address is kept exactly when all three filters pass (not code, `FF_REF` set, no string entry) and either `c - 4` is kept or the nearest earlier instruction is `POP`, `POP.W`, `B.W` or `B`. |
| LiteralPools.LiteralPools | scripts/stm32f4x-firmware.py:85-137 | The result is strictly increasing and lies in `[s, e)` on the item-size walk. Every entry is non-code, has `FF_REF` and is no string entry. The list holds exactly the walked addresses meeting the filters plus the continuation-or-block-end rule. |
| LiteralPools.LiteralPoolsExact | scripts/stm32f4x-firmware.py:120-134 | The scan's list equals the walked addresses satisfying `IsPoolWord`. That is a definition independent of scanning order: admissible, and either after a block end or directly after another pool word. |
| LiteralPools.PoolAfterPop | scripts/stm32f4x-firmware.py:120-134 | With a `POP` at 0x1FFE and three referenced data dwords at 0x2000, 0x2004 and 0x2008, the scan returns all three: the first after the block end, the others as continuations of the pool. |
| LiteralPools.NoPoolAfterCall | scripts/stm32f4x-firmware.py:120-131 | The same database with a `BL` at 0x1FFE yields no pool, because a call is not a block end and no earlier word was accepted. |
| Promotion.ContiguousPoolEndsOnce | scripts/stm32f4x-firmware.py:238-242 | For pools {0x2000, 0x2004, 0x2008}, only 0x200C is a pool end to consider. |
| Promotion.PromoteFrom | scripts/stm32f4x-firmware.py:238-253 | Code never shrinks, and `marked_code` equals the number of promoted addresses. Each promoted address is `a + 4` for a pool word `a` with `a + 4` not a pool word, was not code before, and is code afterwards. |
| Promotion.PromoteFromExact | scripts/stm32f4x-firmware.py:238-253 | The converse of `PromoteFrom`: when auto-analysis turns an unexplored address into code and changes no other address's unexplored status, every pool end of `pools[i..]` unexplored at the start is promoted and counted, and nothing else is. |
| Promotion.PromotePass | scripts/stm32f4x-firmware.py:238-253 | The same, for a whole pass over the pool list. When auto-analysis does exactly what it is asked (`Host.SettlesExactly`), the promoted set is exactly the pool ends that were unexplored when the pass began. |
| Promotion.PromotePassIdle | scripts/stm32f4x-firmware.py:244-247 | If no pool end is unexplored, a pass sends no request, promotes nothing and leaves the database unchanged (a re-run at the fixpoint is a no-op). |
| Promotion.RecoveryPass | scripts/stm32f4x-firmware.py:234-253 | One loop iteration (scan, then promote) never shrinks code. It promotes only addresses in `[s + 4, e + 4)` that were non-code before and are code after, and it counts them exactly. |
| Promotion.RecoveryPassExact | scripts/stm32f4x-firmware.py:234-253 | Under `Host.SettlesExactly`, one iteration promotes exactly the pool ends of its scan that were unexplored when it began. |
| Promotion.FixpointIsStable | scripts/stm32f4x-firmware.py:244-256 | Under `Host.SettlesExactly`, once a pass promotes nothing, a further pass sends no request and returns the same database with count 0, so re-running the loop at the fixpoint changes nothing. |
| Promotion.PassAccounting | scripts/stm32f4x-firmware.py:249-256 | A pass that promotes something keeps the loop's bookkeeping (`Progress`): code only grew, `new_code_sections` stays within the addresses non-code at the start and code now, its size is the sum of the counts, and the non-code part of the range shrinks. A pass that promotes nothing ends the loop with the sum unchanged and at most one pass per non-code address plus one. |
| Promotion.TraceByIndex | scripts/stm32f4x-firmware.py:233-256 | A run of passes read pass by pass: the first pass is the iteration over the starting database, and each later pass is the iteration over the database its predecessor left. |
| Promotion.IterationRuns | scripts/stm32f4x-firmware.py:233-256 | An iteration that promotes something extends the run by exactly that pass, keeps the loop's bookkeeping, keeps every count so far positive, and shrinks the non-code part of `[s + 4, e + 4)`, so the loop terminates. |
| Promotion.IterationStops | scripts/stm32f4x-firmware.py:249-256 | An iteration that promotes nothing ends the run: its pass leaves the final database (the database before it only under `Host.SettlesExactly`, by `Promotion.FixpointIsStable`), its count is the only 0, and the promoted addresses of the run are exactly `new_code_sections`. |
| Promotion.Recover | scripts/stm32f4x-firmware.py:229-263 | The loop stops on the first pass with `marked_code == 0`: the last count is 0 and all earlier ones are positive. The ghost `trace` is the actual run: its first pass is the iteration over the starting database, each later pass is the iteration over the database its predecessor left, the counts are the passes' `marked_code`, `new_code_sections` is the union of what the passes promoted, and the last pass promotes nothing and leaves the final database. Under `Host.SettlesExactly` one more pass over the final state changes nothing. `iterations` (the number of passes) is at most the number of non-code addresses in `[s + 4, e + 4)` plus one. Code never shrinks. `new_code_sections` holds only addresses non-code at the start and code at the end, and its size is the sum of the per-pass counts. |
| DataReferences.LdrFrom | scripts/stm32f4x-firmware.py:173-187 | Entries are in strictly increasing address order (distinct keys). Each entry is a walked address with mnemonic exactly `LDR`, a resolvable immediate, and its target equal to that immediate. |
| DataReferences.LdrFromComplete | scripts/stm32f4x-firmware.py:179-183 | Every walked `LDR` with a resolvable immediate has an entry. Unresolvable ones are the only ones skipped. |
| DataReferences.LdrPseudoInstructions | scripts/stm32f4x-firmware.py:157-187 | The table's keys are exactly the walked `LDR` addresses with a resolvable immediate, each mapped to that immediate, in increasing order. |
| DataReferences.LinkString | scripts/stm32f4x-firmware.py:278-285 | For one string, references come only from table entries whose target is the string's start, whose address differs from it, and whose `add_dref` request can succeed (a source is recorded only on success, lines 284-285). When every `add_dref` succeeds, all of those entries are recorded. When none qualifies, nothing is requested. |
| DataReferences.LinkAll | scripts/stm32f4x-firmware.py:277-285 | Over all strings, the recorded set is contained in the entries that load some string's start from a different address and whose `add_dref` request towards that start can succeed (`LinkableTo`), and equals the first set when every `add_dref` succeeds. |
| DataReferences.LinkDataReferences | scripts/stm32f4x-firmware.py:273-285 | Every reference source is a key of the LDR table, its immediate is the start of a detected string other than itself, and its `add_dref` request towards that string can succeed. When every `add_dref` succeeds, the sources are exactly the linkable entries. |
| DataReferences.LinkExample | scripts/stm32f4x-firmware.py:276-285 | The table {0x1000: 0x2000, 0x1004: 0x2000, 0x1008: 0x3000} with a string at 0x2000 yields the sources {0x1000, 0x1004}. |
| Firmware.ReplaceSub | scripts/stm32f4x-firmware.py:224 | A name without the substring `sub_` is left unchanged. A name starting with `sub_` comes out starting with `reset_`, and the result is never shorter than the name. |
| Firmware.ResetName | scripts/stm32f4x-firmware.py:222-224 | A new name is produced exactly for names starting with `sub_`, and that new name starts with `reset_`. |
| Firmware.ReadVectors | scripts/stm32f4x-firmware.py:203-217 | The stack pointer is the little-endian dword at 0x08000000 and the reset vector the one at 0x08000004. The entry is even and adds up with the Thumb bit to the reset vector, and Thumb holds exactly when bit 0 is set. The T register at the reset vector's address is nonzero afterwards, and so is the one at 0x08000000 (line 204) when making a dword never clears a T register (`Host.DwordKeepsT`). |
| VectorTable.GetDwordKeepsT | scripts/stm32f4x-firmware.py:150-154 | Under `Host.DwordKeepsT`, reading a dword keeps a set T register set. |
| Firmware.MarkData | scripts/stm32f4x-firmware.py:265-285 | Every confirmed string passes both string checks and its `create_strlit` request can succeed (`MarkableStarts`), and when `create_strlit` always succeeds the confirmed set is exactly the acceptable spans' starts. The LDR table, read after the strings are made, is in increasing address order inside the ROM range. Its keys are exactly the walked `LDR` addresses with a resolvable immediate, each mapped to that immediate. Every reference comes from an entry that loads a detected string's start from another address and whose `add_dref` request towards it can succeed (`LinkableTo`), and when `add_dref` always succeeds the references are exactly those entries. |
| Firmware.RecoverFirmware | scripts/stm32f4x-firmware.py:203-285 | A whole run over the ROM range 0x08000000 .. 0x0807FFFF (end excluded). Stack pointer and reset vector are the dwords at the base and base + 4, and the entry is the even address under the reset vector. The ghost `trace` is the run of loop iterations starting from the database left by `auto_make_proc` at the entry: the pass counts are its counts, new code is the union of what it promoted, and it ends in exactly one 0, from a pass that leaves the fixpoint state; under `Host.SettlesExactly` a further pass there changes nothing. New code lies in `[base + 4, end + 4)`, was not code after `auto_make_proc` and is code at the fixpoint. Code only grows from there to the fixpoint, the size of the new code is the sum of the counts, and the number of passes is at most the number of non-code addresses of `[base + 4, end + 4)` after `auto_make_proc`, plus one. Strings and references satisfy everything `Firmware.MarkData` states, including the exact sets when the requests always succeed and the completeness of the LDR table. |

## Behaviour worth knowing

- The linking loop runs over the disassembler's full string list, not over the
  set `create_string_literals` returned. So a detected string that failed
  validation can still receive references. `DataReferences.LinkDataReferences`
  takes `Image.strings` accordingly.
- `set_t` always writes 1, whatever `value` it is given. A reset vector with
  bit 0 clear does not record ARM mode.

## Left out

- The progress messages (lines 231, 257-262, 267-269, 274 and 287).
- The asynchronous auto-analysis queue. `auto_make_code` followed by
  `auto_wait` is one synchronous `Host.settle`. It always keeps code from
  shrinking; `Host.SettlesExactly` is an extra hypothesis, not a promise. `auto_make_proc`, `create_dword`, `create_strlit` and
  `add_dref` are opaque `Host` fields with no contract, because the
  disassembler decides their outcome. `Host.DwordKeepsT` (making a dword
  never clears a set T register) is likewise a hypothesis.
- The Python regular-expression engine and `str(string)` decoding. They are
  replaced by a byte predicate on the span content without its terminator.
  A byte the image does not define reads as 0xFF.
- The global `string_addrs` cache is built on first use. It is modelled as a
  pure lookup over the fixed detected-string list. That list is assumed not to
  change during a run.
- `print_operand(addr, 4)` and parsing its hexadecimal text in `get_dword`.
  The value is taken to be the little-endian dword in the image.
- LiteralPools.NearestInsn: the script's backward mnemonic search has no lower
  bound. The model stops at the scan start `s` and treats exhaustion as
  rejection, a deliberate divergence.
- TBit.SetT: the T register is keyed by address. The disassembler's
  `set_default_sreg_value` sets a default for the whole segment containing
  the address.
- Firmware.RecoverFirmware: it does not rename the reset function. The rename
  goes through `get_func_name` and `set_name`, which are foreign calls. Only
  its rule is modelled, in `Firmware.ResetName`.
- Promotion.Recover: the bound on passes counts all non-code addresses of
  `[s + 4, e + 4)`, not only initially unexplored items. This is a looser bound
  than "unexplored items plus one", because the sole contract on auto-analysis
  is that code does not shrink.
- Monotonicity of the code set is claimed only for the fixpoint phase. Nothing
  is promised about `create_strlit` or `add_dref`.
- Firmware.ReplaceSub: only the unchanged case, the `reset_` prefix and the
  length bound are stated. What `str.replace` does to later occurrences of
  `sub_` is not, because the rename itself is a foreign call outside the model.
- Promotion.PromoteFrom: with an arbitrary auto-analysis, only the direction
  "promoted implies a pool end that turned from non-code into code" holds. An
  earlier request in the same pass may change the class of a later pool end,
  so "unexplored when the pass began" is claimed only under
  `Host.SettlesExactly` (`Promotion.PromoteFromExact`).
- StringLiterals.CreateStrings: a marked start's `create_strlit` request is
  stated to succeed in some database (`Host.StrlitCanSucceed`), not in the
  particular database of its call, because the intermediate databases of the
  loop are not outputs of the model.
- DataReferences.LinkString: likewise, a recorded source's `add_dref` request
  is stated to succeed in some database (`Host.DrefCanSucceed`).
- Firmware.ReadVectors: the T register at 0x08000000 is stated nonzero only
  under `Host.DwordKeepsT`, because `create_dword` is otherwise unconstrained
  and might clear it.
- Promotion.PromotePass: the same gap as `Promotion.PromoteFrom`. With an
  arbitrary auto-analysis, a pool end that is unexplored when its turn comes
  and code after the settle is promoted, but that is not stated. Only the
  direction from promoted addresses back to pool ends holds. The exact set is
  stated only under `Host.SettlesExactly`.
- Promotion.RecoveryPass: the same gap, for one loop iteration. The exact set
  of promoted pool ends is stated only under `Host.SettlesExactly`, in
  `Promotion.RecoveryPassExact`.

=== FILE: backend.dfy ===
/** The disassembler database the firmware script drives, as an immutable value.

    The script only ever sees the database through a handful of queries
    (flags, item size, mnemonic, immediate value, segment register) and a
    handful of mutating requests (make code and wait, make a procedure and
    wait, make a dword, make a string literal, add a data reference).  The
    queries become total functions over `State`; the requests, whose effect
    is decided by the disassembler and cannot be seen from the script, become
    function-valued fields of `Host`. */
module Backend {
  import opened Wrappers

  /** Size in bytes of a database item: the disassembler never reports less than one. */
  type Size = x: int | 1 <= x witness 1

  /** Flag layout of the disassembler's 32-bit per-address flag word. */
  const MS_CLS: bv32 := 0x600
  const FF_CODE: bv32 := 0x600
  const FF_UNK: bv32 := 0x000
  /** "Something references this address"; the script tests it as 4096. */
  const FF_REF: bv32 := 0x1000

  /** The mutable part of the database.  Addresses absent from a map hold the
      disassembler's default: flags 0 (unexplored, unreferenced), item size 1,
      empty mnemonic, no resolvable immediate, T register 0. */
  datatype State = State(
    flags: map<int, bv32>,
    sizes: map<int, Size>,
    mnemonics: map<int, string>,
    immediates: map<int, int>,
    tReg: map<int, int>)

  /** A string the disassembler's own string scanner reported: start and length,
      the length counting the terminating NUL. */
  datatype Span = Span(ea: int, length: int)

  /** The read-only inputs: the loaded bytes and the detected string list. */
  datatype Image = Image(bytes: map<int, bv8>, strings: seq<Span>)

  function Flags(st: State, a: int): bv32 {
    if a in st.flags then st.flags[a] else 0
  }

  predicate IsCode(st: State, a: int) {
    Flags(st, a) & MS_CLS == FF_CODE
  }

  predicate IsUnknown(st: State, a: int) {
    Flags(st, a) & MS_CLS == FF_UNK
  }

  predicate HasRef(st: State, a: int) {
    Flags(st, a) & FF_REF == FF_REF
  }

  function ItemSize(st: State, a: int): Size {
    if a in st.sizes then st.sizes[a] else 1
  }

  function Mnem(st: State, a: int): string {
    if a in st.mnemonics then st.mnemonics[a] else ""
  }

  /** First immediate value of operand 1 of the instruction at `a`, when the
      disassembler can resolve one. */
  function Immediate(st: State, a: int): Option<int> {
    if a in st.immediates then Some(st.immediates[a]) else None
  }

  /** Value of the T segment register at `a`. */
  function TReg(st: State, a: int): int {
    if a in st.tReg then st.tReg[a] else 0
  }

  /** A byte of the image; a byte the image does not define reads as 0xFF. */
  function Byte(img: Image, a: int): bv8 {
    if a in img.bytes then img.bytes[a] else 0xFF
  }

  /** Between `st` and `st'` no address stopped being code. */
  ghost predicate CodeGrows(st: State, st': State) {
    forall a :: IsCode(st, a) ==> IsCode(st', a)
  }

  /** The mutating requests the script sends.  `settle(st, a)` is
      `auto_make_code(a)` followed by `auto_wait()`, `settleProc` the same
      with `auto_make_proc`; the others return `None` where the request
      reports failure. */
  datatype Host = Host(
    settle: (State, int) -> State,
    settleProc: (State, int) -> State,
    makeDword: (State, int) -> State,
    makeStrlit: (State, int, int) -> Option<State>,
    addDref: (State, int, int) -> Option<State>)
  {
    /** The one promise made about auto-analysis: it never turns code back
        into data or unexplored bytes. */
    ghost predicate Monotone() {
      forall st: State, a: int :: CodeGrows(st, settle(st, a))
    }

    /** A model of auto-analysis that does exactly what was asked: an
        unexplored address handed to it becomes code, and no other address
        changes between unexplored and explored. */
    ghost predicate SettlesExactly() {
      forall st: State, a: int :: IsUnknown(st, a) ==>
        && IsCode(settle(st, a), a)
        && forall b :: b != a ==> (IsUnknown(settle(st, a), b) <==> IsUnknown(st, b))
    }

    /** Making a dword never clears a T register that is set. */
    ghost predicate DwordKeepsT() {
      forall st: State, a: int, b: int :: TReg(st, b) != 0 ==> TReg(makeDword(st, a), b) != 0
    }

    /** Every string-literal request succeeds. */
    ghost predicate StrlitAlwaysSucceeds() {
      forall st: State, lo: int, hi: int :: makeStrlit(st, lo, hi).Some?
    }

    /** A string-literal request over `[lo, hi)` succeeds in some database. */
    ghost predicate StrlitCanSucceed(lo: int, hi: int) {
      exists st: State :: makeStrlit(st, lo, hi).Some?
    }

    /** A data-reference request from `src` to `dst` succeeds in some database. */
    ghost predicate DrefCanSucceed(src: int, dst: int) {
      exists st: State :: addDref(st, src, dst).Some?
    }

    /** Every data-reference request succeeds. */
    ghost predicate DrefAlwaysSucceeds() {
      forall st: State, src: int, dst: int :: addDref(st, src, dst).Some?
    }
  }

  /** `x` is one of the addresses visited by a walk from `c` up to (excluding)
      `e` that steps by the size of the item at each address, as both scanners
      of the script do. */
  predicate OnWalk(st: State, c: int, e: int, x: int)
    decreases e - c
  {
    c < e && (x == c || OnWalk(st, c + ItemSize(st, c), e, x))
  }

  /** Every walked address lies in `[c, e)`. */
  lemma {:induction false} OnWalkBounds(st: State, c: int, e: int, x: int)
    requires OnWalk(st, c, e, x)
    ensures c <= x < e
    decreases e - c
  {
    if x != c {
      OnWalkBounds(st, c + ItemSize(st, c), e, x);
    }
  }
}

=== FILE: firmware.dfy ===
/** The script's top level: vector table, T bit, reset procedure, the literal
    pool fixpoint, string literals and data references, over the STM32F4 ROM. */
module Firmware {
  import opened Wrappers
  import opened Backend
  import TBit
  import VectorTable
  import Promotion
  import StringLiterals
  import DataReferences

  /** The ROM range the script works on; the end bound is exclusive in both
      scanners, so the byte at 0x0807_FFFF itself is never visited. */
  const ROM_ADDR_BEGIN: int := 0x0800_0000
  const ROM_ADDR_END: int := 0x0807_FFFF

  /** `name` has the substring "sub_" starting at index `k`. */
  predicate SubAt(name: string, k: int) {
    0 <= k && k + 4 <= |name| && name[k..k + 4] == "sub_"
  }

  /** `reset_name.replace('sub_', 'reset_')`: every non-overlapping occurrence,
      left to right.  A name without the substring is returned unchanged. */
  function ReplaceSub(name: string): (r: string)
    ensures (forall k :: !SubAt(name, k)) ==> r == name
    ensures SubAt(name, 0) ==> |r| >= 6 && r[..6] == "reset_"
    ensures |r| >= |name|
    decreases |name|
  {
    if |name| == 0 then ""
    else if |name| >= 4 && name[..4] == "sub_" then
      assert SubAt(name, 0);
      "reset_" + ReplaceSub(name[4..])
    else
      forall k | SubAt(name[1..], k)
        ensures SubAt(name, k + 1)
      {
        assert name[1..][k..k + 4] == name[k + 1..k + 5];
      }
      [name[0]] + ReplaceSub(name[1..])
  }

  /** The new name given to the reset function: only a default `sub_` name is
      changed, and the change makes it a `reset_` name. */
  function ResetName(name: string): (r: Option<string>)
    ensures r.Some? <==> |name| >= 4 && name[..4] == "sub_"
    ensures r.Some? ==> |r.value| >= 6 && r.value[..6] == "reset_"
  {
    if |name| >= 4 && name[..4] == "sub_" then Some(ReplaceSub(name)) else None
  }

  /** What the vector table gives: the database after the T-bit and dword
      requests, the two vectors, and the reset entry with its Thumb bit. */
  datatype Vectors = Vectors(st: State, stack: int, reset: int, entry: int, thumb: bool)

  /** Reading the vector table: set T at the image base, read the stack
      pointer and the reset vector as dwords, record the reset vector's low bit
      in T at the vector's address, and split off the entry address. */
  function ReadVectors(h: Host, st0: State, img: Image): (v: Vectors)
    ensures v.stack == VectorTable.LE32(img, ROM_ADDR_BEGIN)
    ensures v.reset == VectorTable.LE32(img, ROM_ADDR_BEGIN + 4)
    ensures v.entry % 2 == 0 && v.entry + (if v.thumb then 1 else 0) == v.reset
    ensures v.thumb <==> v.reset % 2 == 1
    ensures TReg(v.st, v.reset) != 0
    ensures h.DwordKeepsT() ==> TReg(v.st, ROM_ADDR_BEGIN) != 0
  {
    var st := TBit.SetT(st0, ROM_ADDR_BEGIN, 1);
    var stackRead := VectorTable.GetDword(h, st, img, ROM_ADDR_BEGIN);
    var resetRead := VectorTable.GetDword(h, stackRead.0, img, ROM_ADDR_BEGIN + 4);
    VectorTable.GetDwordKeepsT(h, st, img, ROM_ADDR_BEGIN, ROM_ADDR_BEGIN);
    VectorTable.GetDwordKeepsT(h, stackRead.0, img, ROM_ADDR_BEGIN + 4, ROM_ADDR_BEGIN);
    var reset := resetRead.1;
    var entry := VectorTable.ResetEntry(reset);
    Vectors(TBit.SetT(resetRead.0, reset, reset % 2), stackRead.1, reset, entry.0, entry.1)
  }

  /** The two passes after the fixpoint: confirm the detected strings, then
      link the `LDR` pseudo-instructions of the ROM to the strings they load. */
  method MarkData(h: Host, st0: State, img: Image)
    returns (st: State, strings: set<int>, ldrs: seq<DataReferences.Ldr>, references: set<int>)
    ensures forall a :: a in strings ==>
      exists i :: 0 <= i < |img.strings| && img.strings[i].ea == a
        && StringLiterals.Acceptable(img, img.strings[i])
    ensures forall i, j :: 0 <= i < j < |ldrs| ==> ldrs[i].addr < ldrs[j].addr
    ensures forall i :: 0 <= i < |ldrs| ==> ROM_ADDR_BEGIN <= ldrs[i].addr < ROM_ADDR_END
    ensures forall a :: a in references ==>
      (exists i, j :: 0 <= i < |ldrs| && 0 <= j < |img.strings|
        && ldrs[i].addr == a && ldrs[i].target == img.strings[j].ea && a != img.strings[j].ea)
    ensures strings <= StringLiterals.MarkableStarts(h, img, img.strings)
    ensures references <= DataReferences.LinkableTo(h, img.strings, ldrs)
    ensures h.StrlitAlwaysSucceeds() ==> strings == StringLiterals.AcceptableStarts(img, img.strings)
    ensures h.DrefAlwaysSucceeds() ==> references == DataReferences.Linkable(img.strings, ldrs)
    ensures var stS := StringLiterals.CreateStringLiterals(h, st0, img).0;
      && (forall i :: 0 <= i < |ldrs| ==>
            DataReferences.IsLdrPseudo(stS, ldrs[i].addr) && Immediate(stS, ldrs[i].addr) == Some(ldrs[i].target))
      && (forall x :: OnWalk(stS, ROM_ADDR_BEGIN, ROM_ADDR_END, x) && DataReferences.IsLdrPseudo(stS, x) ==>
            exists i :: 0 <= i < |ldrs| && ldrs[i].addr == x)
  {
    var marked := StringLiterals.CreateStringLiterals(h, st0, img);
    st, strings := marked.0, marked.1;
    ldrs := DataReferences.LdrPseudoInstructions(st, ROM_ADDR_BEGIN, ROM_ADDR_END);
    forall i | 0 <= i < |ldrs|
      ensures ROM_ADDR_BEGIN <= ldrs[i].addr < ROM_ADDR_END
    {
      OnWalkBounds(st, ROM_ADDR_BEGIN, ROM_ADDR_END, ldrs[i].addr);
    }
    var linked := DataReferences.LinkDataReferences(h, st, img, ldrs);
    st, references := linked.0, linked.1;
  }

  /** What a run reports. */
  datatype Summary = Summary(
    stack: int,
    reset: int,
    entry: int,
    thumb: bool,
    passes: seq<nat>,
    newCode: set<int>,
    strings: set<int>,
    ldrs: seq<DataReferences.Ldr>,
    references: set<int>)

  /** A whole run of the script over the database `st0` and the image `img`. */
  method RecoverFirmware(h: Host, st0: State, img: Image)
    returns (sum: Summary, st: State, ghost stFixpoint: State, ghost trace: seq<Promotion.Pass>)
    requires h.Monotone()
    ensures sum.stack == VectorTable.LE32(img, ROM_ADDR_BEGIN)
    ensures sum.reset == VectorTable.LE32(img, ROM_ADDR_BEGIN + 4)
    ensures sum.entry % 2 == 0 && sum.entry + (if sum.thumb then 1 else 0) == sum.reset
    ensures |sum.passes| >= 1 && sum.passes[|sum.passes| - 1] == 0
    ensures forall k :: 0 <= k < |sum.passes| - 1 ==> sum.passes[k] > 0
    ensures forall a :: a in sum.newCode ==> ROM_ADDR_BEGIN + 4 <= a < ROM_ADDR_END + 4
    ensures forall a :: a in sum.strings ==>
      exists i :: 0 <= i < |img.strings| && img.strings[i].ea == a
        && StringLiterals.Acceptable(img, img.strings[i])
    ensures forall i, j :: 0 <= i < j < |sum.ldrs| ==> sum.ldrs[i].addr < sum.ldrs[j].addr
    ensures forall i :: 0 <= i < |sum.ldrs| ==> ROM_ADDR_BEGIN <= sum.ldrs[i].addr < ROM_ADDR_END
    ensures forall a :: a in sum.references ==>
      (exists i, j :: 0 <= i < |sum.ldrs| && 0 <= j < |img.strings|
        && sum.ldrs[i].addr == a && sum.ldrs[i].target == img.strings[j].ea && a != img.strings[j].ea)
    ensures |trace| == |sum.passes| && forall k :: 0 <= k < |trace| ==> trace[k].marked == sum.passes[k]
    ensures var v := ReadVectors(h, st0, img);
      && Promotion.IsTrace(h, h.settleProc(v.st, v.entry), img, ROM_ADDR_BEGIN, ROM_ADDR_END, trace)
      && trace[0] == Promotion.RecoveryPass(h, h.settleProc(v.st, v.entry), img, ROM_ADDR_BEGIN, ROM_ADDR_END)
    ensures forall k :: 0 < k < |trace| ==>
      trace[k] == Promotion.RecoveryPass(h, trace[k - 1].st, img, ROM_ADDR_BEGIN, ROM_ADDR_END)
    ensures trace[|trace| - 1] == Promotion.Pass(stFixpoint, 0, {})
    ensures sum.newCode == Promotion.Promoted(trace)
    ensures h.SettlesExactly() ==>
      Promotion.RecoveryPass(h, stFixpoint, img, ROM_ADDR_BEGIN, ROM_ADDR_END) == Promotion.Pass(stFixpoint, 0, {})
    ensures forall a :: a in sum.newCode ==> IsCode(stFixpoint, a)
    ensures var v := ReadVectors(h, st0, img);
      var st1 := h.settleProc(v.st, v.entry);
      && CodeGrows(st1, stFixpoint)
      && (forall a :: a in sum.newCode ==> !IsCode(st1, a))
      && |sum.newCode| == Promotion.Sum(sum.passes)
      && |sum.passes| <= |Promotion.NonCode(st1, ROM_ADDR_BEGIN + 4, ROM_ADDR_END + 4)| + 1
    ensures sum.strings <= StringLiterals.MarkableStarts(h, img, img.strings)
    ensures sum.references <= DataReferences.LinkableTo(h, img.strings, sum.ldrs)
    ensures h.StrlitAlwaysSucceeds() ==> sum.strings == StringLiterals.AcceptableStarts(img, img.strings)
    ensures h.DrefAlwaysSucceeds() ==> sum.references == DataReferences.Linkable(img.strings, sum.ldrs)
    ensures var stS := StringLiterals.CreateStringLiterals(h, stFixpoint, img).0;
      && (forall i :: 0 <= i < |sum.ldrs| ==>
            DataReferences.IsLdrPseudo(stS, sum.ldrs[i].addr) && Immediate(stS, sum.ldrs[i].addr) == Some(sum.ldrs[i].target))
      && (forall x :: OnWalk(stS, ROM_ADDR_BEGIN, ROM_ADDR_END, x) && DataReferences.IsLdrPseudo(stS, x) ==>
            exists i :: 0 <= i < |sum.ldrs| && sum.ldrs[i].addr == x)
  {
    var v := ReadVectors(h, st0, img);
    st := h.settleProc(v.st, v.entry);
    var passes, newCode;
    st, passes, newCode, trace := Promotion.Recover(h, st, img, ROM_ADDR_BEGIN, ROM_ADDR_END);
    stFixpoint := st;
    var strings, ldrs, references;
    st, strings, ldrs, references := MarkData(h, st, img);
    sum := Summary(v.stack, v.reset, v.entry, v.thumb, passes, newCode, strings, ldrs, references);
  }
}

=== FILE: pools.dfy ===
/** `get_literal_pools`: one scan of a range for words that look like the
    constants of a literal pool. */
module LiteralPools {
  import opened Wrappers
  import opened Backend
  import StringLiterals

  /** Mnemonics after which execution cannot fall through: a register pop (which
      returns when it pops PC) or an unconditional branch. */
  const BlockEnders: set<string> := {"POP", "POP.W", "B.W", "B"}

  predicate Increasing(s: seq<int>) {
    forall i, j :: 0 <= i < j < |s| ==> s[i] < s[j]
  }

  /** The nearest address at or below `p`, and not below `lo`, that decodes to
      an instruction (has a non-empty mnemonic). */
  function NearestInsn(st: State, lo: int, p: int): (r: Option<int>)
    ensures r.Some? ==> lo <= r.value <= p && Mnem(st, r.value) != ""
    ensures r.Some? ==> forall q :: r.value < q <= p ==> Mnem(st, q) == ""
    ensures r.None? ==> forall q :: lo <= q <= p ==> Mnem(st, q) == ""
    decreases p - lo
  {
    if p < lo then None
    else if Mnem(st, p) != "" then Some(p)
    else NearestInsn(st, lo, p - 1)
  }

  /** The instruction found by searching backwards from `c - 2` ends a block. */
  predicate FollowsBlockEnd(st: State, s: int, c: int) {
    match NearestInsn(st, s, c - 2)
    case Some(p) => Mnem(st, p) in BlockEnders
    case None => false
  }

  /** The three per-address filters: not code, referenced, not a string entry. */
  predicate Admissible(st: State, img: Image, c: int) {
    !IsCode(st, c) && HasRef(st, c) && !StringLiterals.HasStringEntry(img.strings, c)
  }

  /** Whether the scan accepts `c`, given the pools `acc` found before it. */
  predicate Accepts(st: State, img: Image, s: int, c: int, acc: seq<int>) {
    Admissible(st, img, c) && (c - 4 in acc || FollowsBlockEnd(st, s, c))
  }

  /** The scanning loop from address `c` with the pools `acc` found so far. */
  function Scan(st: State, img: Image, s: int, e: int, c: int, acc: seq<int>): seq<int>
    decreases e - c
  {
    if c >= e then acc
    else Scan(st, img, s, e, c + ItemSize(st, c), if Accepts(st, img, s, c, acc) then acc + [c] else acc)
  }

  /** One step of the scan: the current address is appended when accepted,
      and the walk moves on by its item size. */
  lemma ScanStep(st: State, img: Image, s: int, e: int, c: int, acc: seq<int>)
    requires c < e
    ensures Scan(st, img, s, e, c, acc) ==
      Scan(st, img, s, e, c + ItemSize(st, c), if Accepts(st, img, s, c, acc) then acc + [c] else acc)
  {
  }

  /** The scan only appends, and only addresses its walk visits. */
  lemma {:induction false} ScanShape(st: State, img: Image, s: int, e: int, c: int, acc: seq<int>)
    ensures var r := Scan(st, img, s, e, c, acc);
      && |acc| <= |r| && r[..|acc|] == acc
      && forall i :: |acc| <= i < |r| ==> OnWalk(st, c, e, r[i])
    decreases e - c
  {
    if c < e {
      var c' := c + ItemSize(st, c);
      var acc' := if Accepts(st, img, s, c, acc) then acc + [c] else acc;
      var r := Scan(st, img, s, e, c, acc);
      ScanStep(st, img, s, e, c, acc);
      ScanShape(st, img, s, e, c', acc');
      assert r[..|acc'|] == acc';
      assert r[..|acc|] == acc'[..|acc|];
      forall i | |acc| <= i < |r|
        ensures OnWalk(st, c, e, r[i])
      {
        if i >= |acc'| {
          assert OnWalk(st, c', e, r[i]);
        } else {
          assert r[i] == acc'[i] == c;
        }
      }
    }
  }

  /** The scan's result is increasing when it starts from an increasing
      accumulator below the current address. */
  lemma {:induction false} ScanIncreasing(st: State, img: Image, s: int, e: int, c: int, acc: seq<int>)
    requires forall i :: 0 <= i < |acc| ==> acc[i] < c
    requires Increasing(acc)
    ensures Increasing(Scan(st, img, s, e, c, acc))
    decreases e - c
  {
    if c < e {
      var c' := c + ItemSize(st, c);
      var acc' := if Accepts(st, img, s, c, acc) then acc + [c] else acc;
      ScanStep(st, img, s, e, c, acc);
      Extend(acc, c, Accepts(st, img, s, c, acc));
      ExtendBelow(acc, c, c', Accepts(st, img, s, c, acc));
      ScanIncreasing(st, img, s, e, c', acc');
      assert Scan(st, img, s, e, c, acc) == Scan(st, img, s, e, c', acc');
    } else {
      assert Scan(st, img, s, e, c, acc) == acc;
    }
  }

  /** Appending the current address keeps the accumulator increasing. */
  lemma Extend(acc: seq<int>, c: int, keep: bool)
    requires forall i :: 0 <= i < |acc| ==> acc[i] < c
    requires Increasing(acc)
    ensures Increasing(if keep then acc + [c] else acc)
  {
  }

  /** Appending the current address keeps the accumulator below the next address. */
  lemma ExtendBelow(acc: seq<int>, c: int, c': int, keep: bool)
    requires forall i :: 0 <= i < |acc| ==> acc[i] < c
    requires c < c'
    ensures var acc' := if keep then acc + [c] else acc;
      forall i :: 0 <= i < |acc'| ==> acc'[i] < c'
  {
  }

  /** Membership in a sequence whose elements past a prefix all exceed `bound`
      is decided by the prefix, for values up to `bound`. */
  lemma PrefixMembership(r: seq<int>, p: seq<int>, bound: int, y: int)
    requires |p| <= |r| && r[..|p|] == p
    requires forall i :: |p| <= i < |r| ==> bound < r[i]
    requires y <= bound
    ensures y in r <==> y in p
  {
    if y in r {
      var i :| 0 <= i < |r| && r[i] == y;
      assert i < |p| && p[i] == y;
    }
    if y in p {
      var i :| 0 <= i < |p| && p[i] == y;
      assert r[i] == y;
    }
  }

  /** The address a scan step starts from is kept exactly when the step accepts it. */
  lemma ScanHead(st: State, img: Image, s: int, e: int, c: int, acc: seq<int>)
    requires forall i :: 0 <= i < |acc| ==> acc[i] < c
    requires c < e
    ensures var r := Scan(st, img, s, e, c, acc);
      && (c in r <==> Accepts(st, img, s, c, acc))
      && (c - 4 in r <==> c - 4 in acc)
  {
    var r := Scan(st, img, s, e, c, acc);
    var c' := c + ItemSize(st, c);
    var acc' := if Accepts(st, img, s, c, acc) then acc + [c] else acc;
    ScanStep(st, img, s, e, c, acc);
    ScanShape(st, img, s, e, c', acc');
    forall i | |acc'| <= i < |r|
      ensures c < r[i]
    {
      OnWalkBounds(st, c', e, r[i]);
    }
    PrefixMembership(r, acc', c, c);
    PrefixMembership(r, acc', c, c - 4);
    assert c !in acc;
    assert c - 4 in acc' <==> c - 4 in acc;
  }

  /** Membership in the scan's result, stated without the scanning order: a
      walked address is kept exactly when it passes the filters and either its
      predecessor word is kept or it follows a block end. */
  lemma {:induction false} ScanMembership(st: State, img: Image, s: int, e: int, c: int, acc: seq<int>, x: int)
    requires forall i :: 0 <= i < |acc| ==> acc[i] < c
    requires OnWalk(st, c, e, x)
    ensures var r := Scan(st, img, s, e, c, acc);
      x in r <==> Admissible(st, img, x) && (x - 4 in r || FollowsBlockEnd(st, s, x))
    decreases e - c
  {
    if x == c {
      ScanHead(st, img, s, e, c, acc);
    } else {
      var c' := c + ItemSize(st, c);
      var acc' := if Accepts(st, img, s, c, acc) then acc + [c] else acc;
      ScanStep(st, img, s, e, c, acc);
      ExtendBelow(acc, c, c', Accepts(st, img, s, c, acc));
      ScanMembership(st, img, s, e, c', acc', x);
    }
  }

  /** What the scan from `s` with nothing found yet returns: increasing walked
      addresses of `[s, e)`, each admissible, and the membership rule. */
  lemma ScanFromStart(st: State, img: Image, s: int, e: int)
    ensures var r := Scan(st, img, s, e, s, []);
      && Increasing(r)
      && (forall i :: 0 <= i < |r| ==> s <= r[i] < e && OnWalk(st, s, e, r[i]) && Admissible(st, img, r[i]))
      && (forall x :: OnWalk(st, s, e, x) ==>
            (x in r <==> Admissible(st, img, x) && (x - 4 in r || FollowsBlockEnd(st, s, x))))
  {
    var r := Scan(st, img, s, e, s, []);
    ScanShape(st, img, s, e, s, []);
    ScanIncreasing(st, img, s, e, s, []);
    forall x | OnWalk(st, s, e, x)
      ensures x in r <==> Admissible(st, img, x) && (x - 4 in r || FollowsBlockEnd(st, s, x))
    {
      ScanMembership(st, img, s, e, s, [], x);
    }
    forall i | 0 <= i < |r|
      ensures s <= r[i] < e && Admissible(st, img, r[i])
    {
      OnWalkBounds(st, s, e, r[i]);
      ScanMembership(st, img, s, e, s, [], r[i]);
    }
  }

  /** `get_literal_pools(s, e)`: the candidate pool words of `[s, e)`, in
      increasing order.  Exactly the walked addresses that pass the three
      filters and either continue a pool at `x - 4` or follow a block end. */
  function LiteralPools(st: State, img: Image, s: int, e: int): (r: seq<int>)
    ensures Increasing(r)
    ensures forall i :: 0 <= i < |r| ==> s <= r[i] < e && OnWalk(st, s, e, r[i])
    ensures forall a :: a in r ==> !IsCode(st, a) && HasRef(st, a)
    ensures forall a :: a in r ==> !StringLiterals.HasStringEntry(img.strings, a)
    ensures forall x :: OnWalk(st, s, e, x) ==>
      (x in r <==> Admissible(st, img, x) && (x - 4 in r || FollowsBlockEnd(st, s, x)))
  {
    ScanFromStart(st, img, s, e);
    Scan(st, img, s, e, s, [])
  }

  /** Reference definition of a pool word, independent of the scanning order:
      an admissible walked address that follows a block end or whose
      predecessor word `x - 4` is itself a pool word. */
  predicate IsPoolWord(st: State, img: Image, s: int, e: int, x: int)
    decreases x - s
  {
    && Admissible(st, img, x)
    && (|| FollowsBlockEnd(st, s, x)
        || (x - 4 >= s && OnWalk(st, s, e, x - 4) && IsPoolWord(st, img, s, e, x - 4)))
  }

  /** The scan returns exactly the walked addresses that are pool words. */
  lemma {:induction false} LiteralPoolsExact(st: State, img: Image, s: int, e: int, x: int)
    ensures x in LiteralPools(st, img, s, e) <==> OnWalk(st, s, e, x) && IsPoolWord(st, img, s, e, x)
    decreases x - s
  {
    var r := LiteralPools(st, img, s, e);
    if x in r {
      var i :| 0 <= i < |r| && r[i] == x;
      assert OnWalk(st, s, e, x);
    }
    if x - 4 in r {
      var i :| 0 <= i < |r| && r[i] == x - 4;
      assert x - 4 >= s && OnWalk(st, s, e, x - 4);
    }
    if OnWalk(st, s, e, x) && x - 4 >= s {
      LiteralPoolsExact(st, img, s, e, x - 4);
    }
  }

  /** A database with `ender` at 0x1FFE and three referenced dwords after it. */
  function PopThenPool(ender: string): State {
    State(
      map[0x2000 := 0x1400, 0x2004 := 0x1400, 0x2008 := 0x1400],
      map[0x1FFE := 2, 0x2000 := 4, 0x2004 := 4, 0x2008 := 4],
      map[0x1FFE := ender],
      map[], map[])
  }

  /** The three dwords of `PopThenPool` pass the three filters; the instruction
      before them is the one at 0x1FFE. */
  lemma PopThenPoolFacts(ender: string)
    requires ender != ""
    ensures !Admissible(PopThenPool(ender), Image(map[], []), 0x1FFE)
    ensures forall a :: a in {0x2000, 0x2004, 0x2008} ==> Admissible(PopThenPool(ender), Image(map[], []), a)
    ensures FollowsBlockEnd(PopThenPool(ender), 0x1FFE, 0x2000) <==> ender in BlockEnders
  {
    var st := PopThenPool(ender);
    assert (0x1400 as bv32) & MS_CLS == 0x400;
    assert (0x1400 as bv32) & FF_REF == FF_REF;
    assert StringLiterals.Cache([]) == map[];
    assert NearestInsn(st, 0x1FFE, 0x1FFE) == Some(0x1FFE);
  }

  /** After a `POP`, three contiguous referenced words form one pool: the first
      by the block-end rule, the other two as continuations. */
  lemma PoolAfterPop()
    ensures LiteralPools(PopThenPool("POP"), Image(map[], []), 0x1FFE, 0x200C) == [0x2000, 0x2004, 0x2008]
  {
    var img := Image(map[], []);
    var st := PopThenPool("POP");
    var s0, e0 := 0x1FFE, 0x200C;
    assert ItemSize(st, 0x1FFE) == 2 && ItemSize(st, 0x2000) == 4;
    assert ItemSize(st, 0x2004) == 4 && ItemSize(st, 0x2008) == 4;
    assert !Accepts(st, img, s0, 0x1FFE, []) by { PopThenPoolFacts("POP"); }
    assert Accepts(st, img, s0, 0x2000, []) by { PopThenPoolFacts("POP"); }
    assert Accepts(st, img, s0, 0x2004, [0x2000]) by { PopThenPoolFacts("POP"); }
    assert Accepts(st, img, s0, 0x2008, [0x2000, 0x2004]) by { PopThenPoolFacts("POP"); }
    var p1, p2, p3 := [0x2000], [0x2000, 0x2004], [0x2000, 0x2004, 0x2008];
    assert [] + [0x2000] == p1 && p1 + [0x2004] == p2 && p2 + [0x2008] == p3;
    assert Scan(st, img, s0, e0, 0x200C, p3) == p3;
    ScanStep(st, img, s0, e0, 0x2008, p2);
    ScanStep(st, img, s0, e0, 0x2004, p1);
    ScanStep(st, img, s0, e0, 0x2000, []);
    ScanStep(st, img, s0, e0, 0x1FFE, []);
    assert Scan(st, img, s0, e0, s0, []) == p3;
  }

  /** After a `BL`, which returns to the next instruction, the same words are
      not a pool. */
  lemma NoPoolAfterCall()
    ensures LiteralPools(PopThenPool("BL"), Image(map[], []), 0x1FFE, 0x200C) == []
  {
    var img := Image(map[], []);
    var st := PopThenPool("BL");
    var s0, e0 := 0x1FFE, 0x200C;
    assert ItemSize(st, 0x1FFE) == 2 && ItemSize(st, 0x2000) == 4;
    assert ItemSize(st, 0x2004) == 4 && ItemSize(st, 0x2008) == 4;
    assert !Accepts(st, img, s0, 0x1FFE, []) by { PopThenPoolFacts("BL"); }
    assert !Accepts(st, img, s0, 0x2000, []) by { PopThenPoolFacts("BL"); }
    assert !Accepts(st, img, s0, 0x2004, []) by {
      assert NearestInsn(st, s0, 0x2002) == Some(0x1FFE);
    }
    assert !Accepts(st, img, s0, 0x2008, []) by {
      assert NearestInsn(st, s0, 0x2006) == Some(0x1FFE);
    }
    ScanStep(st, img, s0, e0, 0x1FFE, []);
    ScanStep(st, img, s0, e0, 0x2000, []);
    ScanStep(st, img, s0, e0, 0x2004, []);
    ScanStep(st, img, s0, e0, 0x2008, []);
  }
}

=== FILE: promote.dfy ===
/** The fixpoint loop: the address just past each literal pool is handed to
    auto-analysis as code, and the range is re-scanned until a pass promotes
    nothing. */
module Promotion {
  import opened Backend
  import LiteralPools

  /** The addresses a pass considers: `a + 4` for each pool word `a` whose
      successor word is not itself a pool word. */
  predicate IsPoolEnd(pools: seq<int>, n: int) {
    n - 4 in pools && n !in pools
  }

  /** Three contiguous pool words end once, after the third. */
  lemma ContiguousPoolEndsOnce(n: int)
    ensures IsPoolEnd([0x2000, 0x2004, 0x2008], n) <==> n == 0x200C
  {
  }

  /** The outcome of one promotion pass: the database afterwards, the
      `marked_code` counter and the addresses added to `new_code_sections`. */
  datatype Pass = Pass(st: State, marked: nat, promoted: set<int>)

  /** The promotion loop over `pools[i..]`: each pool end that is unexplored
      when its turn comes is made code and analysed; it is promoted when it is
      code afterwards. */
  function PromoteFrom(h: Host, st: State, pools: seq<int>, i: nat): (r: Pass)
    requires h.Monotone()
    requires i <= |pools|
    ensures CodeGrows(st, r.st)
    ensures r.marked == |r.promoted|
    ensures forall p :: p in r.promoted ==> IsPoolEnd(pools, p) && !IsCode(st, p) && IsCode(r.st, p)
    ensures forall p :: p in r.promoted ==> exists j :: i <= j < |pools| && pools[j] + 4 == p
    decreases |pools| - i
  {
    if i == |pools| then Pass(st, 0, {})
    else
      var n := pools[i] + 4;
      if n in pools || !IsUnknown(st, n) then PromoteFrom(h, st, pools, i + 1)
      else
        var st1 := h.settle(st, n);
        assert CodeGrows(st, st1);
        var rest := PromoteFrom(h, st1, pools, i + 1);
        if IsCode(st1, n) then
          Pass(rest.st, rest.marked + 1, rest.promoted + {n})
        else rest
  }

  /** The pool ends of `pools[i..]` that are unexplored in `st`. */
  function UnknownEnds(st: State, pools: seq<int>, i: nat): set<int>
    requires i <= |pools|
  {
    set a | a in pools[i..] && a + 4 !in pools && IsUnknown(st, a + 4) :: a + 4
  }

  /** Peeling the first pool word off `pools[i..]`. */
  lemma UnknownEndsStep(st: State, pools: seq<int>, i: nat)
    requires i < |pools|
    ensures var n := pools[i] + 4;
      UnknownEnds(st, pools, i)
        == UnknownEnds(st, pools, i + 1) + (if n !in pools && IsUnknown(st, n) then {n} else {})
  {
    var n := pools[i] + 4;
    var head: set<int> := if n !in pools && IsUnknown(st, n) then {n} else {};
    assert pools[i..] == [pools[i]] + pools[i + 1..];
    forall x | x in UnknownEnds(st, pools, i)
      ensures x in UnknownEnds(st, pools, i + 1) + head
    {
      var a :| a in pools[i..] && a + 4 !in pools && IsUnknown(st, a + 4) && x == a + 4;
      if a != pools[i] {
        assert a in pools[i + 1..];
      }
    }
    forall x | x in UnknownEnds(st, pools, i + 1) + head
      ensures x in UnknownEnds(st, pools, i)
    {
      if x in head {
        assert pools[i] in pools[i..];
      } else {
        var a :| a in pools[i + 1..] && a + 4 !in pools && IsUnknown(st, a + 4) && x == a + 4;
        assert a in pools[i..];
      }
    }
  }

  /** Settling `n` under an exact auto-analysis removes `n`, and only `n`, from
      the unexplored pool ends. */
  lemma UnknownEndsAfterSettle(h: Host, st: State, pools: seq<int>, i: nat, n: int)
    requires h.SettlesExactly()
    requires i <= |pools|
    requires IsUnknown(st, n)
    ensures UnknownEnds(h.settle(st, n), pools, i) == UnknownEnds(st, pools, i) - {n}
  {
    var st1 := h.settle(st, n);
    assert IsCode(st1, n);
    forall a | a in pools[i..] && a + 4 !in pools
      ensures IsUnknown(st1, a + 4) <==> IsUnknown(st, a + 4) && a + 4 != n
    {
    }
  }

  /** The converse of `PromoteFrom`'s contract, for an auto-analysis that does
      exactly what it is asked: every pool end that is unexplored when the pass
      starts is promoted and counted, and nothing else is. */
  lemma {:induction false} PromoteFromExact(h: Host, st: State, pools: seq<int>, i: nat)
    requires h.Monotone()
    requires i <= |pools|
    ensures h.SettlesExactly() ==> PromoteFrom(h, st, pools, i).promoted == UnknownEnds(st, pools, i)
    decreases |pools| - i
  {
    if h.SettlesExactly() && i < |pools| {
      var n := pools[i] + 4;
      UnknownEndsStep(st, pools, i);
      if n in pools || !IsUnknown(st, n) {
        PromoteFromExact(h, st, pools, i + 1);
      } else {
        var st1 := h.settle(st, n);
        PromoteFromExact(h, st1, pools, i + 1);
        UnknownEndsAfterSettle(h, st, pools, i + 1, n);
        assert IsCode(st1, n);
      }
    }
  }

  /** One pass of the `for addr in literal_pools` loop.  With an exact
      auto-analysis it promotes exactly the pool ends that were unexplored. */
  function PromotePass(h: Host, st: State, pools: seq<int>): (r: Pass)
    requires h.Monotone()
    ensures CodeGrows(st, r.st)
    ensures r.marked == |r.promoted|
    ensures forall p :: p in r.promoted ==> IsPoolEnd(pools, p) && !IsCode(st, p) && IsCode(r.st, p)
    ensures h.SettlesExactly() ==> r.promoted == UnknownEnds(st, pools, 0)
  {
    PromoteFromExact(h, st, pools, 0);
    PromoteFrom(h, st, pools, 0)
  }

  /** When no pool end is unexplored, a pass asks nothing of auto-analysis,
      promotes nothing and leaves the database as it was. */
  lemma {:induction false} PromoteFromIdle(h: Host, st: State, pools: seq<int>, i: nat)
    requires h.Monotone()
    requires i <= |pools|
    requires forall n :: IsPoolEnd(pools, n) ==> !IsUnknown(st, n)
    ensures PromoteFrom(h, st, pools, i) == Pass(st, 0, {})
    decreases |pools| - i
  {
    if i < |pools| {
      var n := pools[i] + 4;
      assert n - 4 in pools;
      PromoteFromIdle(h, st, pools, i + 1);
    }
  }

  lemma PromotePassIdle(h: Host, st: State, pools: seq<int>)
    requires h.Monotone()
    requires forall n :: IsPoolEnd(pools, n) ==> !IsUnknown(st, n)
    ensures PromotePass(h, st, pools) == Pass(st, 0, {})
  {
    PromoteFromIdle(h, st, pools, 0);
  }

  /** One iteration of the `while True` loop body: scan `[s, e)` for pools and
      promote the addresses past their ends.  Every promoted address lies
      four bytes past a pool word, so in `[s + 4, e + 4)`. */
  function RecoveryPass(h: Host, st: State, img: Image, s: int, e: int): (r: Pass)
    requires h.Monotone()
    ensures CodeGrows(st, r.st)
    ensures r.marked == |r.promoted|
    ensures forall p :: p in r.promoted ==> s + 4 <= p < e + 4 && !IsCode(st, p) && IsCode(r.st, p)
  {
    var pools := LiteralPools.LiteralPools(st, img, s, e);
    var r := PromotePass(h, st, pools);
    assert forall p :: p in r.promoted ==> p - 4 in pools;
    r
  }

  /** With an exact auto-analysis, one iteration promotes exactly the pool
      ends of its scan that were unexplored when it began. */
  lemma RecoveryPassExact(h: Host, st: State, img: Image, s: int, e: int)
    requires h.Monotone() && h.SettlesExactly()
    ensures RecoveryPass(h, st, img, s, e).promoted == UnknownEnds(st, LiteralPools.LiteralPools(st, img, s, e), 0)
  {
  }

  /** At a fixpoint of an exact auto-analysis (a pass that promoted nothing),
      a further pass sends no request and changes nothing: re-running the
      loop from there is a no-op. */
  lemma FixpointIsStable(h: Host, st: State, img: Image, s: int, e: int)
    requires h.Monotone() && h.SettlesExactly()
    requires RecoveryPass(h, st, img, s, e).marked == 0
    ensures RecoveryPass(h, st, img, s, e) == Pass(st, 0, {})
  {
    var pools := LiteralPools.LiteralPools(st, img, s, e);
    RecoveryPassExact(h, st, img, s, e);
    assert UnknownEnds(st, pools, 0) == {};
    assert pools[0..] == pools;
    assert forall n :: IsPoolEnd(pools, n) ==> !IsUnknown(st, n);
    PromotePassIdle(h, st, pools);
  }

  /** The addresses of `[lo, hi)` that are not code. */
  function NonCode(st: State, lo: int, hi: int): set<int> {
    set a | lo <= a < hi && !IsCode(st, a)
  }

  /** Two disjoint subsets of `c` together are no larger than `c`. */
  lemma DisjointSubsetsCard(a: set<int>, b: set<int>, c: set<int>)
    requires a <= c && b <= c && a !! b
    ensures |a| + |b| <= |c|
  {
    var u := a + b;
    assert |u| == |a| + |b|;
    assert c == u + (c - u);
    assert |c| == |u| + |c - u|;
  }

  function Sum(xs: seq<nat>): nat {
    if |xs| == 0 then 0 else Sum(xs[..|xs| - 1]) + xs[|xs| - 1]
  }

  lemma SumAppend(xs: seq<nat>, x: nat)
    ensures Sum(xs + [x]) == Sum(xs) + x
  {
    assert (xs + [x])[..|xs|] == xs;
  }

  /** The loop's bookkeeping after some passes: code only grew, the newly
      promoted addresses lie in `[s + 4, e + 4)` and turned from non-code into
      code, their number is the sum of the pass counts and at least the number
      of passes, and they came out of the non-code part of the range. */
  ghost predicate Progress(st0: State, st: State, passes: seq<nat>, newCode: set<int>, s: int, e: int) {
    && CodeGrows(st0, st)
    && (forall a :: a in newCode ==> s + 4 <= a < e + 4 && !IsCode(st0, a) && IsCode(st, a))
    && |newCode| == Sum(passes)
    && |passes| <= |newCode|
    && |newCode| + |NonCode(st, s + 4, e + 4)| <= |NonCode(st0, s + 4, e + 4)|
  }

  /** What one pass does to the loop's bookkeeping: its promoted addresses are
      new and leave the non-code part of the range, so the bookkeeping holds
      after it, and a pass that promotes something shrinks that part. */
  lemma PassAccounting(st0: State, st: State, passes: seq<nat>, newCode: set<int>, pass: Pass, s: int, e: int)
    requires Progress(st0, st, passes, newCode, s, e)
    requires CodeGrows(st, pass.st)
    requires pass.marked == |pass.promoted|
    requires forall p :: p in pass.promoted ==> s + 4 <= p < e + 4 && !IsCode(st, p) && IsCode(pass.st, p)
    ensures pass.marked > 0 ==> Progress(st0, pass.st, passes + [pass.marked], newCode + pass.promoted, s, e)
    ensures pass.marked > 0 ==> |NonCode(pass.st, s + 4, e + 4)| < |NonCode(st, s + 4, e + 4)|
    ensures pass.marked == 0 ==> CodeGrows(st0, pass.st) && Sum(passes + [0]) == |newCode|
    ensures pass.marked == 0 ==> |passes + [0]| <= |NonCode(st0, s + 4, e + 4)| + 1
  {
    var before := NonCode(st, s + 4, e + 4);
    var after := NonCode(pass.st, s + 4, e + 4);
    var initial := NonCode(st0, s + 4, e + 4);
    SumAppend(passes, pass.marked);
    assert forall p :: p in pass.promoted ==> p in before && p !in after && !IsCode(st0, p);
    assert after <= before - pass.promoted;
    DisjointSubsetsCard(after, pass.promoted, before);
    assert newCode !! before;
    assert newCode + pass.promoted <= initial;
    assert |newCode + pass.promoted| == |newCode| + |pass.promoted|;
  }

  /** The database a run of passes from `st0` ends in. */
  function EndOf(st0: State, trace: seq<Pass>): State {
    if |trace| == 0 then st0 else trace[|trace| - 1].st
  }

  /** `trace` is the sequence of passes the loop runs from `st0`: each pass
      is the iteration run over the database the passes before it left. */
  ghost predicate IsTrace(h: Host, st0: State, img: Image, s: int, e: int, trace: seq<Pass>)
    requires h.Monotone()
    decreases |trace|
  {
    if |trace| == 0 then true
    else
      var init := trace[..|trace| - 1];
      IsTrace(h, st0, img, s, e, init) && trace[|trace| - 1] == RecoveryPass(h, EndOf(st0, init), img, s, e)
  }

  /** A trace read pass by pass: the first pass runs over `st0`, and every
      later pass over the database its predecessor left. */
  lemma {:induction false} TraceByIndex(h: Host, st0: State, img: Image, s: int, e: int, trace: seq<Pass>)
    requires h.Monotone()
    requires IsTrace(h, st0, img, s, e, trace)
    ensures |trace| > 0 ==> trace[0] == RecoveryPass(h, st0, img, s, e)
    ensures forall k :: 0 < k < |trace| ==> trace[k] == RecoveryPass(h, trace[k - 1].st, img, s, e)
    decreases |trace|
  {
    if |trace| > 0 {
      var init := trace[..|trace| - 1];
      TraceByIndex(h, st0, img, s, e, init);
      assert forall k :: 0 <= k < |init| ==> init[k] == trace[k];
    }
  }

  /** The addresses promoted over a run of passes. */
  function Promoted(trace: seq<Pass>): set<int> {
    if |trace| == 0 then {} else Promoted(trace[..|trace| - 1]) + trace[|trace| - 1].promoted
  }

  /** `passes` and `newCode` tally a run of passes: one count per pass, and
      the union of what they promoted. */
  ghost predicate Tallied(trace: seq<Pass>, passes: seq<nat>, newCode: set<int>) {
    && |trace| == |passes|
    && (forall k :: 0 <= k < |trace| ==> trace[k].marked == passes[k])
    && newCode == Promoted(trace)
  }

  /** The loop's record of its run: `trace` is the run of passes from `st0`,
      `passes` and `newCode` tally it, and `st` is the database the last of
      them left. */
  ghost predicate Traced(h: Host, st0: State, img: Image, s: int, e: int, trace: seq<Pass>,
                         passes: seq<nat>, newCode: set<int>, st: State)
    requires h.Monotone()
  {
    && IsTrace(h, st0, img, s, e, trace)
    && Tallied(trace, passes, newCode)
    && st == EndOf(st0, trace)
  }

  /** Tallying one more pass. */
  lemma TallyExtend(trace: seq<Pass>, passes: seq<nat>, newCode: set<int>, p: Pass)
    requires Tallied(trace, passes, newCode)
    ensures Tallied(trace + [p], passes + [p.marked], newCode + p.promoted)
  {
    assert (trace + [p])[..|trace|] == trace;
  }

  /** Running one more pass over the database a trace ends in extends the
      trace by that pass. */
  lemma TraceExtend(h: Host, st0: State, img: Image, s: int, e: int, trace: seq<Pass>)
    requires h.Monotone()
    requires IsTrace(h, st0, img, s, e, trace)
    ensures IsTrace(h, st0, img, s, e, trace + [RecoveryPass(h, EndOf(st0, trace), img, s, e)])
  {
    var p := RecoveryPass(h, EndOf(st0, trace), img, s, e);
    assert (trace + [p])[..|trace|] == trace;
  }

  /** Running one more pass over the database the record ends in extends
      the record by that pass. */
  lemma TracedExtend(h: Host, st0: State, img: Image, s: int, e: int, trace: seq<Pass>,
                     passes: seq<nat>, newCode: set<int>, st: State)
    requires h.Monotone()
    requires Traced(h, st0, img, s, e, trace, passes, newCode, st)
    ensures var p := RecoveryPass(h, st, img, s, e);
      Traced(h, st0, img, s, e, trace + [p], passes + [p.marked], newCode + p.promoted, p.st)
  {
    var p := RecoveryPass(h, st, img, s, e);
    TraceExtend(h, st0, img, s, e, trace);
    TallyExtend(trace, passes, newCode, p);
  }

  /** What holds of the loop's variables at the top of every iteration. */
  ghost predicate Running(h: Host, st0: State, img: Image, s: int, e: int, trace: seq<Pass>,
                          passes: seq<nat>, newCode: set<int>, st: State)
    requires h.Monotone()
  {
    && (forall k :: 0 <= k < |passes| ==> passes[k] > 0)
    && Progress(st0, st, passes, newCode, s, e)
    && Traced(h, st0, img, s, e, trace, passes, newCode, st)
  }

  /** What holds of the loop's variables once it has stopped: the run ends
      with a pass that promoted nothing, every earlier pass promoted
      something, and the promoted addresses are the new code. */
  ghost predicate Stopped(h: Host, st0: State, img: Image, s: int, e: int, trace: seq<Pass>,
                          passes: seq<nat>, newCode: set<int>, st: State)
    requires h.Monotone()
  {
    && Traced(h, st0, img, s, e, trace, passes, newCode, st)
    && |passes| >= 1
    && trace[|trace| - 1] == Pass(st, 0, {})
    && passes[|passes| - 1] == 0
    && (forall k :: 0 <= k < |passes| - 1 ==> passes[k] > 0)
    && CodeGrows(st0, st)
    && (forall a :: a in newCode ==> s + 4 <= a < e + 4 && !IsCode(st0, a) && IsCode(st, a))
    && |newCode| == Sum(passes)
    && |passes| <= |NonCode(st0, s + 4, e + 4)| + 1
  }

  /** An iteration whose pass promotes something keeps the loop running, over
      a smaller non-code part of the range. */
  lemma IterationRuns(h: Host, st0: State, img: Image, s: int, e: int, trace: seq<Pass>,
                      passes: seq<nat>, newCode: set<int>, st: State)
    requires h.Monotone()
    requires Running(h, st0, img, s, e, trace, passes, newCode, st)
    requires RecoveryPass(h, st, img, s, e).marked > 0
    ensures var p := RecoveryPass(h, st, img, s, e);
      && Running(h, st0, img, s, e, trace + [p], passes + [p.marked], newCode + p.promoted, p.st)
      && |NonCode(p.st, s + 4, e + 4)| < |NonCode(st, s + 4, e + 4)|
  {
    var p := RecoveryPass(h, st, img, s, e);
    PassAccounting(st0, st, passes, newCode, p, s, e);
    TracedExtend(h, st0, img, s, e, trace, passes, newCode, st);
  }

  /** An iteration whose pass promotes nothing stops the loop. */
  lemma IterationStops(h: Host, st0: State, img: Image, s: int, e: int, trace: seq<Pass>,
                       passes: seq<nat>, newCode: set<int>, st: State)
    requires h.Monotone()
    requires Running(h, st0, img, s, e, trace, passes, newCode, st)
    requires RecoveryPass(h, st, img, s, e).marked == 0
    ensures var p := RecoveryPass(h, st, img, s, e);
      Stopped(h, st0, img, s, e, trace + [p], passes + [p.marked], newCode + p.promoted, p.st)
  {
    var p := RecoveryPass(h, st, img, s, e);
    PassAccounting(st0, st, passes, newCode, p, s, e);
    TracedExtend(h, st0, img, s, e, trace, passes, newCode, st);
    assert p.promoted == {};
  }

  /** The `while True` loop over `[s, e)`: scan, promote, and stop after the
      first pass that promotes nothing.  `passes` holds the `marked_code` count
      of each pass, so `|passes|` is the `iterations` counter; `trace` is the
      run of passes itself. */
  method Recover(h: Host, st0: State, img: Image, s: int, e: int)
    returns (st: State, passes: seq<nat>, newCode: set<int>, ghost trace: seq<Pass>)
    requires h.Monotone()
    ensures IsTrace(h, st0, img, s, e, trace)
    ensures |trace| == |passes| >= 1
    ensures forall k :: 0 <= k < |trace| ==> trace[k].marked == passes[k]
    ensures trace[0] == RecoveryPass(h, st0, img, s, e)
    ensures forall k :: 0 < k < |trace| ==> trace[k] == RecoveryPass(h, trace[k - 1].st, img, s, e)
    ensures trace[|trace| - 1] == Pass(st, 0, {})
    ensures newCode == Promoted(trace)
    ensures h.SettlesExactly() ==> RecoveryPass(h, st, img, s, e) == Pass(st, 0, {})
    ensures passes[|passes| - 1] == 0
    ensures forall k :: 0 <= k < |passes| - 1 ==> passes[k] > 0
    ensures CodeGrows(st0, st)
    ensures forall a :: a in newCode ==> s + 4 <= a < e + 4 && !IsCode(st0, a) && IsCode(st, a)
    ensures |newCode| == Sum(passes)
    ensures |passes| <= |NonCode(st0, s + 4, e + 4)| + 1
  {
    st := st0;
    passes := [];
    newCode := {};
    trace := [];
    while true
      invariant Running(h, st0, img, s, e, trace, passes, newCode, st)
      decreases |NonCode(st, s + 4, e + 4)|
    {
      var pass := RecoveryPass(h, st, img, s, e);
      if pass.marked == 0 {
        IterationStops(h, st0, img, s, e, trace, passes, newCode, st);
        if h.SettlesExactly() {
          FixpointIsStable(h, st, img, s, e);
        }
      } else {
        IterationRuns(h, st0, img, s, e, trace, passes, newCode, st);
      }
      trace := trace + [pass];
      newCode := newCode + pass.promoted;
      passes := passes + [pass.marked];
      st := pass.st;
      if pass.marked == 0 {
        break;
      }
    }
    TraceByIndex(h, st0, img, s, e, trace);
  }
}

=== FILE: strings.dfy ===
/** String handling: the script's address-to-length cache of detected strings
    (`has_string_entry`) and the pass that confirms detected strings as string
    literals (`create_string_literals`). */
module StringLiterals {
  import opened Wrappers
  import opened Backend

  /** `spans[i]` is the last detected string that starts at `a`. */
  predicate LastAt(spans: seq<Span>, a: int, i: int) {
    0 <= i < |spans| && spans[i].ea == a && forall j :: i < j < |spans| ==> spans[j].ea != a
  }

  /** The cache dictionary built from the detected spans in order; a later span
      at the same start address overwrites an earlier one. */
  function Cache(spans: seq<Span>): (m: map<int, int>)
    ensures forall a :: a in m <==> exists i :: 0 <= i < |spans| && spans[i].ea == a
    ensures forall a :: a in m ==> exists i :: LastAt(spans, a, i) && spans[i].length == m[a]
  {
    if |spans| == 0 then map[]
    else
      var n := |spans| - 1;
      var last := spans[n];
      var init := spans[..n];
      var m := Cache(init);
      CacheStep(spans, m, last);
      m[last.ea := last.length]
  }

  /** One step of the cache construction keeps both of its postconditions. */
  lemma CacheStep(spans: seq<Span>, m: map<int, int>, last: Span)
    requires |spans| > 0 && last == spans[|spans| - 1]
    requires forall a :: a in m <==> exists i :: 0 <= i < |spans| - 1 && spans[i].ea == a
    requires forall a :: a in m ==> exists i :: LastAt(spans[..|spans| - 1], a, i) && spans[i].length == m[a]
    ensures var m' := m[last.ea := last.length];
      && (forall a :: a in m' <==> exists i :: 0 <= i < |spans| && spans[i].ea == a)
      && (forall a :: a in m' ==> exists i :: LastAt(spans, a, i) && spans[i].length == m'[a])
  {
    var n := |spans| - 1;
    var m' := m[last.ea := last.length];
    forall a | a in m'
      ensures exists i :: LastAt(spans, a, i) && spans[i].length == m'[a]
    {
      if a == last.ea {
        assert LastAt(spans, a, n);
      } else {
        var i :| LastAt(spans[..n], a, i) && spans[i].length == m[a];
        assert LastAt(spans, a, i);
      }
    }
    forall a | exists i :: 0 <= i < |spans| && spans[i].ea == a
      ensures a in m'
    {
      var i :| 0 <= i < |spans| && spans[i].ea == a;
      if i < n {
        assert spans[..n][i].ea == a;
      }
    }
  }

  /** `has_string_entry(a)` is truthy: `a` starts a detected string whose cached
      length is nonzero. */
  function HasStringEntry(spans: seq<Span>, a: int): (b: bool)
    ensures b <==> exists i :: LastAt(spans, a, i) && spans[i].length != 0
  {
    var m := Cache(spans);
    if a in m then
      LastAtUnique(spans, a);
      m[a] != 0
    else false
  }

  /** At most one span is the last one starting at `a`. */
  lemma LastAtUnique(spans: seq<Span>, a: int)
    ensures forall i, j :: LastAt(spans, a, i) && LastAt(spans, a, j) ==> i == j
  {
  }

  /** A detected string that starts nowhere near `a` never makes it a string entry. */
  lemma NoSpanNoEntry(spans: seq<Span>, a: int)
    requires forall i :: 0 <= i < |spans| ==> spans[i].ea != a
    ensures !HasStringEntry(spans, a)
  {
  }

  /** A detected string of length zero does not count as a string entry. */
  lemma ZeroLengthIsNoEntry(spans: seq<Span>, a: int)
    requires |spans| > 0 && spans[|spans| - 1] == Span(a, 0)
    ensures !HasStringEntry(spans, a)
  {
  }

  /** The byte class of the character set `[\x0a\x0d\x20-\x7E]`. */
  predicate Printable(b: bv8) {
    b == 0x0A || b == 0x0D || (0x20 <= b && b <= 0x7E)
  }

  /** The pattern `^[\x0a\x0d\x20-\x7E]+$`: one or more bytes of that class. */
  predicate MatchesCharset(s: seq<bv8>) {
    |s| > 0 && forall i :: 0 <= i < |s| ==> Printable(s[i])
  }

  /** The text of a string: its bytes without the terminator. */
  function Content(img: Image, sp: Span): (s: seq<bv8>)
    ensures |s| == if sp.length >= 1 then sp.length - 1 else 0
    ensures forall i :: 0 <= i < |s| ==> s[i] == Byte(img, sp.ea + i)
  {
    seq(if sp.length >= 1 then sp.length - 1 else 0, i => Byte(img, sp.ea + i))
  }

  /** The two checks a detected string must pass before it is made a literal:
      its last byte is NUL, and the bytes before it are one or more printable
      characters. */
  function Acceptable(img: Image, sp: Span): (ok: bool)
    ensures ok <==> && sp.length >= 2 && Byte(img, sp.ea + sp.length - 1) == 0
                    && forall a :: sp.ea <= a < sp.ea + sp.length - 1 ==> Printable(Byte(img, a))
  {
    var c := Content(img, sp);
    assert forall a :: sp.ea <= a < sp.ea + sp.length - 1 ==> c[a - sp.ea] == Byte(img, a);
    Byte(img, sp.ea + sp.length - 1) == 0 && MatchesCharset(c)
  }

  /** An acceptable string holds exactly one NUL byte, its last one, and at
      least one byte before it. */
  lemma AcceptableHasOneNul(img: Image, sp: Span)
    requires Acceptable(img, sp)
    ensures sp.length >= 2
    ensures Byte(img, sp.ea + sp.length - 1) == 0
    ensures forall a :: sp.ea <= a < sp.ea + sp.length - 1 ==> Byte(img, a) != 0
  {
    var c := Content(img, sp);
    forall a | sp.ea <= a < sp.ea + sp.length - 1
      ensures Byte(img, a) != 0
    {
      var k := a - sp.ea;
      assert c[k] == Byte(img, a);
      assert Printable(c[k]);
    }
  }

  /** The start addresses of the acceptable spans among `spans`. */
  function AcceptableStarts(img: Image, spans: seq<Span>): set<int> {
    set i | 0 <= i < |spans| && Acceptable(img, spans[i]) :: spans[i].ea
  }

  /** The starts of the acceptable spans among `spans` whose `create_strlit`
      request can succeed at all: the only candidates for being marked. */
  ghost function MarkableStarts(h: Host, img: Image, spans: seq<Span>): set<int> {
    set i | 0 <= i < |spans| && Acceptable(img, spans[i])
      && h.StrlitCanSucceed(spans[i].ea, spans[i].ea + spans[i].length) :: spans[i].ea
  }

  /** How both start sets change when one more span is appended. */
  lemma StartsStep(h: Host, img: Image, spans: seq<Span>)
    requires |spans| > 0
    ensures var init, sp := spans[..|spans| - 1], spans[|spans| - 1];
      && AcceptableStarts(img, spans) == AcceptableStarts(img, init) + (if Acceptable(img, sp) then {sp.ea} else {})
      && MarkableStarts(h, img, init) <= MarkableStarts(h, img, spans)
      && (Acceptable(img, sp) && h.StrlitCanSucceed(sp.ea, sp.ea + sp.length) ==> sp.ea in MarkableStarts(h, img, spans))
  {
    var init := spans[..|spans| - 1];
    assert spans == init + [spans[|spans| - 1]];
    assert forall i :: 0 <= i < |init| ==> init[i] == spans[i];
  }

  /** The loop of `create_string_literals` over `spans`, in order: each
      acceptable span is offered to `create_strlit`, and its start is recorded
      when the request succeeds.  Its contract is stated by `CreateStrings`. */
  function StrlitLoop(h: Host, st: State, img: Image, spans: seq<Span>): (State, set<int>) {
    if |spans| == 0 then (st, {})
    else
      var sp := spans[|spans| - 1];
      var prev := StrlitLoop(h, st, img, spans[..|spans| - 1]);
      if !Acceptable(img, sp) then prev
      else match h.makeStrlit(prev.0, sp.ea, sp.ea + sp.length)
        case Some(st') => (st', prev.1 + {sp.ea})
        case None => prev
  }

  /** Only acceptable spans whose request can succeed are marked. */
  lemma {:induction false} StrlitLoopSound(h: Host, st: State, img: Image, spans: seq<Span>)
    ensures StrlitLoop(h, st, img, spans).1 <= MarkableStarts(h, img, spans)
  {
    if |spans| > 0 {
      var sp := spans[|spans| - 1];
      var prev := StrlitLoop(h, st, img, spans[..|spans| - 1]);
      StrlitLoopSound(h, st, img, spans[..|spans| - 1]);
      StartsStep(h, img, spans);
      if Acceptable(img, sp) && h.makeStrlit(prev.0, sp.ea, sp.ea + sp.length).Some? {
        assert h.StrlitCanSucceed(sp.ea, sp.ea + sp.length);
      }
    }
  }

  /** When every request succeeds, every acceptable span is marked. */
  lemma {:induction false} StrlitLoopComplete(h: Host, st: State, img: Image, spans: seq<Span>)
    ensures h.StrlitAlwaysSucceeds() ==> StrlitLoop(h, st, img, spans).1 == AcceptableStarts(img, spans)
  {
    if h.StrlitAlwaysSucceeds() && |spans| > 0 {
      var sp := spans[|spans| - 1];
      var prev := StrlitLoop(h, st, img, spans[..|spans| - 1]);
      StrlitLoopComplete(h, st, img, spans[..|spans| - 1]);
      StartsStep(h, img, spans);
      assert h.makeStrlit(prev.0, sp.ea, sp.ea + sp.length).Some?;
    }
  }

  /** A loop that marks nothing leaves the database as it found it. */
  lemma {:induction false} StrlitLoopIdle(h: Host, st: State, img: Image, spans: seq<Span>)
    ensures StrlitLoop(h, st, img, spans).1 == {} ==> StrlitLoop(h, st, img, spans).0 == st
  {
    if |spans| > 0 {
      StrlitLoopIdle(h, st, img, spans[..|spans| - 1]);
    }
  }

  /** Every marked start is an acceptable one whose request can succeed. */
  lemma MarkableAcceptable(h: Host, img: Image, spans: seq<Span>)
    ensures MarkableStarts(h, img, spans) <= AcceptableStarts(img, spans)
  {
  }

  /** `create_string_literals` over the spans `spans`.  Returns the database
      afterwards and the set of starts whose `create_strlit` request
      succeeded. */
  function CreateStrings(h: Host, st: State, img: Image, spans: seq<Span>): (r: (State, set<int>))
    ensures r.1 <= MarkableStarts(h, img, spans)
    ensures r.1 <= AcceptableStarts(img, spans)
    ensures h.StrlitAlwaysSucceeds() ==> r.1 == AcceptableStarts(img, spans)
    ensures AcceptableStarts(img, spans) == {} ==> r == (st, {})
    ensures r.1 == {} ==> r.0 == st
  {
    StrlitLoopSound(h, st, img, spans);
    MarkableAcceptable(h, img, spans);
    StrlitLoopIdle(h, st, img, spans);
    StrlitLoopComplete(h, st, img, spans);
    StrlitLoop(h, st, img, spans)
  }

  /** The pass over the disassembler's string list. */
  function CreateStringLiterals(h: Host, st: State, img: Image): (r: (State, set<int>))
    ensures forall a :: a in r.1 ==>
      exists i :: 0 <= i < |img.strings| && Acceptable(img, img.strings[i])
        && h.StrlitCanSucceed(img.strings[i].ea, img.strings[i].ea + img.strings[i].length)
        && img.strings[i].ea == a
    ensures r.1 <= MarkableStarts(h, img, img.strings)
    ensures h.StrlitAlwaysSucceeds() ==> r.1 == AcceptableStarts(img, img.strings)
    ensures AcceptableStarts(img, img.strings) == {} ==> r == (st, {})
    ensures r.1 == {} ==> r.0 == st
  {
    CreateStrings(h, st, img, img.strings)
  }

  /** Six bytes at 0x2000 spelling "Hello" and then `last`. */
  function HelloImage(last: bv8): Image {
    Image(map[0x2000 := 0x48, 0x2001 := 0x65, 0x2002 := 0x6C, 0x2003 := 0x6C,
              0x2004 := 0x6F, 0x2005 := last], [Span(0x2000, 6)])
  }

  /** "Hello\0" is accepted; the same span ending in 0x01 is not. */
  lemma HelloExample()
    ensures Acceptable(HelloImage(0x00), Span(0x2000, 6))
    ensures !Acceptable(HelloImage(0x01), Span(0x2000, 6))
  {
    var c := Content(HelloImage(0x00), Span(0x2000, 6));
    assert c == [0x48, 0x65, 0x6C, 0x6C, 0x6F];
  }

  /** With a backend that accepts every literal, "Hello\0" is marked. */
  lemma HelloMarked(h: Host, st: State)
    requires h.StrlitAlwaysSucceeds()
    ensures CreateStringLiterals(h, st, HelloImage(0x00)).1 == {0x2000}
    ensures CreateStringLiterals(h, st, HelloImage(0x01)).1 == {}
  {
    HelloExample();
    var spans := [Span(0x2000, 6)];
    assert spans[0].ea in AcceptableStarts(HelloImage(0x00), spans);
    assert AcceptableStarts(HelloImage(0x00), spans) == {0x2000};
    assert AcceptableStarts(HelloImage(0x01), spans) == {};
  }
}

=== FILE: tbit.dfy ===
/** `set_t`: record Thumb mode at an address, first write wins. */
module TBit {
  import opened Backend

  /** Sets the T register at `addr` to 1 unless it is already nonzero.  The
      `value` argument is accepted and, as in the script, never used. */
  function SetT(st: State, addr: int, value: int): (r: State)
    ensures TReg(st, addr) != 0 ==> r == st
    ensures TReg(st, addr) == 0 ==> TReg(r, addr) == 1
    ensures forall a :: a != addr ==> TReg(r, a) == TReg(st, a)
    ensures r.flags == st.flags && r.sizes == st.sizes
    ensures r.mnemonics == st.mnemonics && r.immediates == st.immediates
  {
    if TReg(st, addr) == 0 then st.(tReg := st.tReg[addr := 1]) else st
  }

  /** After a call the T register at `addr` is set, whatever it was before. */
  lemma SetTLeavesThumb(st: State, addr: int, value: int)
    ensures TReg(SetT(st, addr, value), addr) != 0
  {
  }

  /** Calling `set_t` a second time changes nothing, whatever value it is given. */
  lemma SetTIdempotent(st: State, addr: int, v1: int, v2: int)
    ensures SetT(SetT(st, addr, v1), addr, v2) == SetT(st, addr, v1)
  {
  }

  /** The requested value has no influence on the outcome. */
  lemma SetTIgnoresValue(st: State, addr: int, v1: int, v2: int)
    ensures SetT(st, addr, v1) == SetT(st, addr, v2)
  {
  }

  /** An ARM request (value 0) on a fresh address still records Thumb. */
  lemma SetTArmRequestGivesThumb(addr: int)
    ensures TReg(SetT(State(map[], map[], map[], map[], map[]), addr, 0), addr) == 1
  {
  }
}

=== FILE: vector.dfy ===
/** The Cortex-M4 vector table: the initial stack pointer at the image base and
    the reset vector four bytes above it (section 2.3.4 of ST PM0214, the
    STM32F4 programming manual). */
module VectorTable {
  import opened Backend

  const TWO32: int := 0x1_0000_0000

  /** The little-endian 32-bit word of four byte values, lowest first. */
  function Word(b0: int, b1: int, b2: int, b3: int): int {
    b0 + 0x100 * (b1 + 0x100 * (b2 + 0x100 * b3))
  }

  /** The little-endian 32-bit word whose bytes sit at `a` .. `a+3`. */
  function LE32(img: Image, a: int): int {
    Word(Byte(img, a) as int, Byte(img, a + 1) as int, Byte(img, a + 2) as int, Byte(img, a + 3) as int)
  }

  /** One byte split off the bottom of a little-endian word. */
  lemma SplitByte(lo: int, hi: int)
    requires 0 <= lo < 0x100
    ensures (lo + 0x100 * hi) % 0x100 == lo
    ensures (lo + 0x100 * hi) / 0x100 == hi
  {
  }

  /** Two bytes split off the bottom of a little-endian word. */
  lemma SplitHalf(lo: int, hi: int)
    requires 0 <= lo < 0x1_0000
    ensures (lo + 0x1_0000 * hi) / 0x1_0000 == hi
  {
  }

  /** Three bytes split off the bottom of a little-endian word. */
  lemma SplitThree(lo: int, hi: int)
    requires 0 <= lo < 0x100_0000
    ensures (lo + 0x100_0000 * hi) / 0x100_0000 == hi
  {
  }

  /** The four bytes of a word read back out of it, on plain integers. */
  lemma WordBytes(b0: int, b1: int, b2: int, b3: int)
    requires 0 <= b0 < 0x100 && 0 <= b1 < 0x100 && 0 <= b2 < 0x100 && 0 <= b3 < 0x100
    ensures var w := Word(b0, b1, b2, b3);
      && 0 <= w < TWO32
      && w % 0x100 == b0
      && w / 0x100 % 0x100 == b1
      && w / 0x1_0000 % 0x100 == b2
      && w / 0x100_0000 == b3
  {
    var w2 := b2 + 0x100 * b3;
    var w1 := b1 + 0x100 * w2;
    var w := b0 + 0x100 * w1;
    SplitByte(b0, w1);
    SplitByte(b1, w2);
    SplitByte(b2, b3);
    assert w / 0x1_0000 == w2 by {
      assert w == (b0 + 0x100 * b1) + 0x1_0000 * w2;
      SplitHalf(b0 + 0x100 * b1, w2);
    }
    assert w / 0x100_0000 == b3 by {
      assert w == (b0 + 0x100 * b1 + 0x1_0000 * b2) + 0x100_0000 * b3;
      SplitThree(b0 + 0x100 * b1 + 0x1_0000 * b2, b3);
    }
  }

  /** `w` is a 32-bit value whose bytes, lowest first, are the four bytes
      at `a`: a little-endian read of that word. */
  predicate IsLE32(w: int, img: Image, a: int) {
    && 0 <= w < TWO32
    && w % 0x100 == Byte(img, a) as int
    && w / 0x100 % 0x100 == Byte(img, a + 1) as int
    && w / 0x1_0000 % 0x100 == Byte(img, a + 2) as int
    && w / 0x100_0000 == Byte(img, a + 3) as int
  }

  /** The four bytes of a word read back out of it. */
  lemma LE32Bytes(img: Image, a: int)
    ensures IsLE32(LE32(img, a), img, a)
  {
    WordBytes(Byte(img, a) as int, Byte(img, a + 1) as int, Byte(img, a + 2) as int, Byte(img, a + 3) as int);
  }

  /** `get_dword`: when the item at `a` is shorter than four bytes, ask the
      disassembler to make a dword there first; then read the dword. */
  function GetDword(h: Host, st: State, img: Image, a: int): (r: (State, int))
    ensures IsLE32(r.1, img, a)
    ensures ItemSize(st, a) >= 4 ==> r.0 == st
    ensures ItemSize(st, a) < 4 ==> r.0 == h.makeDword(st, a)
  {
    LE32Bytes(img, a);
    var st' := if ItemSize(st, a) < 4 then h.makeDword(st, a) else st;
    (st', LE32(img, a))
  }

  /** Reading a dword keeps a set T register set, when making a dword does. */
  lemma GetDwordKeepsT(h: Host, st: State, img: Image, a: int, b: int)
    ensures h.DwordKeepsT() && TReg(st, b) != 0 ==> TReg(GetDword(h, st, img, a).0, b) != 0
  {
  }

  /** The reset entry: the reset vector with bit 0 cleared, and that bit as the
      Thumb flag. */
  function ResetEntry(reset: int): (r: (int, bool))
    requires 0 <= reset
    ensures r.0 % 2 == 0
    ensures r.0 / 2 == reset / 2
    ensures r.0 + (if r.1 then 1 else 0) == reset
  {
    (reset - reset % 2, reset % 2 == 1)
  }

  /** The image starting `00 00 02 20 01 08 00 08` at 0x0800_0000: stack
      pointer 0x2002_0000, reset vector 0x0800_0801, Thumb entry at 0x0800_0800. */
  lemma VectorExample(h: Host, st: State)
    ensures
      var img := Image(map[0x0800_0000 := 0x00, 0x0800_0001 := 0x00,
                           0x0800_0002 := 0x02, 0x0800_0003 := 0x20,
                           0x0800_0004 := 0x01, 0x0800_0005 := 0x08,
                           0x0800_0006 := 0x00, 0x0800_0007 := 0x08], []);
      && GetDword(h, st, img, 0x0800_0000).1 == 0x2002_0000
      && GetDword(h, st, img, 0x0800_0004).1 == 0x0800_0801
      && ResetEntry(0x0800_0801) == (0x0800_0800, true)
  {
    var img := Image(map[0x0800_0000 := 0x00, 0x0800_0001 := 0x00,
                         0x0800_0002 := 0x02, 0x0800_0003 := 0x20,
                         0x0800_0004 := 0x01, 0x0800_0005 := 0x08,
                         0x0800_0006 := 0x00, 0x0800_0007 := 0x08], []);
    assert LE32(img, 0x0800_0000) == Word(0x00, 0x00, 0x02, 0x20) == 0x2002_0000;
    assert LE32(img, 0x0800_0004) == Word(0x01, 0x08, 0x00, 0x08) == 0x0800_0801;
  }
}

=== FILE: wrappers.dfy ===
/** The option type used wherever the firmware script gets
    "nothing" back from the disassembler (a missing dictionary key, an empty
    immediate list, an exhausted instruction search). */
module Wrappers {
  datatype Option<+T> = None | Some(value: T)
}

=== FILE: xrefs.dfy ===
/** `get_ldr_psudo_instructions` and the loop that ties LDR instructions to the
    strings they load. */
module DataReferences {
  import opened Wrappers
  import opened Backend

  /** One entry of the LDR table: the instruction and the address its
      immediate resolves to. */
  datatype Ldr = Ldr(addr: int, target: int)

  /** The walked address `x` holds an `LDR` with a resolvable immediate. */
  predicate IsLdrPseudo(st: State, x: int) {
    Mnem(st, x) == "LDR" && Immediate(st, x).Some?
  }

  /** The LDR table of `[c, e)` in walk order, which is the order the script's
      dictionary keeps.  Instructions whose immediate cannot be resolved are
      skipped. */
  function LdrFrom(st: State, c: int, e: int): (r: seq<Ldr>)
    ensures forall i, j :: 0 <= i < j < |r| ==> r[i].addr < r[j].addr
    ensures forall i :: 0 <= i < |r| ==>
      OnWalk(st, c, e, r[i].addr) && IsLdrPseudo(st, r[i].addr)
      && Immediate(st, r[i].addr) == Some(r[i].target)
    decreases e - c
  {
    if c >= e then []
    else
      var rest := LdrFrom(st, c + ItemSize(st, c), e);
      if IsLdrPseudo(st, c) then
        forall i | 0 <= i < |rest|
          ensures c < rest[i].addr
        {
          OnWalkBounds(st, c + ItemSize(st, c), e, rest[i].addr);
        }
        [Ldr(c, Immediate(st, c).value)] + rest
      else rest
  }

  /** Every walked `LDR` with a resolvable immediate has its entry. */
  lemma {:induction false} LdrFromComplete(st: State, c: int, e: int, x: int)
    requires OnWalk(st, c, e, x) && IsLdrPseudo(st, x)
    ensures exists i :: 0 <= i < |LdrFrom(st, c, e)| && LdrFrom(st, c, e)[i].addr == x
    decreases e - c
  {
    var r := LdrFrom(st, c, e);
    var rest := LdrFrom(st, c + ItemSize(st, c), e);
    if x == c {
      assert r[0].addr == x;
    } else {
      LdrFromComplete(st, c + ItemSize(st, c), e, x);
      var i :| 0 <= i < |rest| && rest[i].addr == x;
      if IsLdrPseudo(st, c) {
        assert r[i + 1] == rest[i];
      } else {
        assert r[i] == rest[i];
      }
    }
  }

  /** `get_ldr_psudo_instructions(s, e)`: an entry for exactly the walked
      addresses holding an `LDR` whose immediate resolves, in walk order. */
  function LdrPseudoInstructions(st: State, s: int, e: int): (r: seq<Ldr>)
    ensures forall i, j :: 0 <= i < j < |r| ==> r[i].addr < r[j].addr
    ensures forall i :: 0 <= i < |r| ==>
      OnWalk(st, s, e, r[i].addr) && IsLdrPseudo(st, r[i].addr)
      && Immediate(st, r[i].addr) == Some(r[i].target)
    ensures forall x :: OnWalk(st, s, e, x) && IsLdrPseudo(st, x) ==>
      exists i :: 0 <= i < |r| && r[i].addr == x
  {
    forall x | OnWalk(st, s, e, x) && IsLdrPseudo(st, x)
      ensures exists i :: 0 <= i < |LdrFrom(st, s, e)| && LdrFrom(st, s, e)[i].addr == x
    {
      LdrFromComplete(st, s, e, x);
    }
    LdrFrom(st, s, e)
  }

  /** The instructions of `ldrs` that load the address `ea` and are not at `ea`. */
  function LoadersOf(ldrs: seq<Ldr>, ea: int): set<int> {
    set i | 0 <= i < |ldrs| && ldrs[i].target == ea && ldrs[i].addr != ea :: ldrs[i].addr
  }

  /** The loaders of `ea` whose `add_dref` request towards `ea` can succeed
      at all: the only candidates for being recorded. */
  ghost function LinkableLoaders(h: Host, ldrs: seq<Ldr>, ea: int): set<int> {
    set i | 0 <= i < |ldrs| && ldrs[i].target == ea && ldrs[i].addr != ea
      && h.DrefCanSucceed(ldrs[i].addr, ea) :: ldrs[i].addr
  }

  /** The inner loop over the LDR table for the string at `ea`. */
  function LinkString(h: Host, st: State, ea: int, ldrs: seq<Ldr>): (r: (State, set<int>))
    ensures r.1 <= LoadersOf(ldrs, ea)
    ensures r.1 <= LinkableLoaders(h, ldrs, ea)
    ensures h.DrefAlwaysSucceeds() ==> r.1 == LoadersOf(ldrs, ea)
    ensures LoadersOf(ldrs, ea) == {} ==> r == (st, {})
    ensures r.1 == {} ==> r.0 == st
    decreases |ldrs|
  {
    if |ldrs| == 0 then (st, {})
    else
      var l := ldrs[0];
      assert LoadersOf(ldrs, ea) == LoadersOf(ldrs[1..], ea)
        + (if l.target == ea && l.addr != ea then {l.addr} else {}) by {
        assert forall i :: 1 <= i < |ldrs| ==> ldrs[1..][i - 1] == ldrs[i];
        assert forall i :: 0 <= i < |ldrs| - 1 ==> ldrs[1..][i] == ldrs[i + 1];
      }
      assert LinkableLoaders(h, ldrs[1..], ea) <= LinkableLoaders(h, ldrs, ea) by {
        assert forall i :: 0 <= i < |ldrs| - 1 ==> ldrs[1..][i] == ldrs[i + 1];
      }
      if l.addr == ea || l.target != ea then LinkString(h, st, ea, ldrs[1..])
      else match h.addDref(st, l.addr, ea)
        case Some(st1) =>
          assert h.DrefCanSucceed(l.addr, ea) && l.addr in LinkableLoaders(h, ldrs, ea) by {
            assert h.addDref(st, l.addr, ea).Some?;
            assert ldrs[0] == l;
          }
          var rest := LinkString(h, st1, ea, ldrs[1..]);
          (rest.0, rest.1 + {l.addr})
        case None => LinkString(h, st, ea, ldrs[1..])
  }

  /** The instructions of `ldrs` that load the start of some span of `spans`
      from a different address. */
  function Linkable(spans: seq<Span>, ldrs: seq<Ldr>): set<int> {
    set i, j | 0 <= i < |ldrs| && 0 <= j < |spans|
      && ldrs[i].target == spans[j].ea && ldrs[i].addr != spans[j].ea :: ldrs[i].addr
  }

  /** The instructions of `ldrs` that load the start of some span of `spans`
      from a different address and whose `add_dref` request towards that
      start can succeed at all. */
  ghost function LinkableTo(h: Host, spans: seq<Span>, ldrs: seq<Ldr>): set<int> {
    set i, j | 0 <= i < |ldrs| && 0 <= j < |spans|
      && ldrs[i].target == spans[j].ea && ldrs[i].addr != spans[j].ea
      && h.DrefCanSucceed(ldrs[i].addr, spans[j].ea) :: ldrs[i].addr
  }

  /** Both sets of linkable instructions, split at the first string. */
  lemma LinkableSplit(h: Host, spans: seq<Span>, ldrs: seq<Ldr>)
    requires |spans| > 0
    ensures Linkable(spans, ldrs) == LoadersOf(ldrs, spans[0].ea) + Linkable(spans[1..], ldrs)
    ensures LinkableLoaders(h, ldrs, spans[0].ea) + LinkableTo(h, spans[1..], ldrs) <= LinkableTo(h, spans, ldrs)
  {
    assert forall j :: 1 <= j < |spans| ==> spans[1..][j - 1] == spans[j];
    assert forall j :: 0 <= j < |spans| - 1 ==> spans[1..][j] == spans[j + 1];
  }

  /** The outer loop over the detected strings. */
  function LinkAll(h: Host, st: State, spans: seq<Span>, ldrs: seq<Ldr>): (r: (State, set<int>))
    ensures r.1 <= Linkable(spans, ldrs)
    ensures r.1 <= LinkableTo(h, spans, ldrs)
    ensures h.DrefAlwaysSucceeds() ==> r.1 == Linkable(spans, ldrs)
    ensures Linkable(spans, ldrs) == {} ==> r == (st, {})
    ensures r.1 == {} ==> r.0 == st
    decreases |spans|
  {
    if |spans| == 0 then (st, {})
    else
      var first := LinkString(h, st, spans[0].ea, ldrs);
      var rest := LinkAll(h, first.0, spans[1..], ldrs);
      LinkableSplit(h, spans, ldrs);
      (rest.0, first.1 + rest.1)
  }

  /** The data-reference pass: every created reference comes from an LDR-table
      instruction that loads a detected string's start from elsewhere. */
  function LinkDataReferences(h: Host, st: State, img: Image, ldrs: seq<Ldr>): (r: (State, set<int>))
    ensures forall a :: a in r.1 ==> exists i :: 0 <= i < |ldrs| && ldrs[i].addr == a
    ensures forall a :: a in r.1 ==>
      (exists i, j :: 0 <= i < |ldrs| && 0 <= j < |img.strings|
        && ldrs[i].addr == a && ldrs[i].target == img.strings[j].ea && a != img.strings[j].ea
        && h.DrefCanSucceed(a, img.strings[j].ea))
    ensures r.1 <= LinkableTo(h, img.strings, ldrs)
    ensures h.DrefAlwaysSucceeds() ==> r.1 == Linkable(img.strings, ldrs)
  {
    LinkAll(h, st, img.strings, ldrs)
  }

  /** Two loads of the string at 0x2000 are linked; the load of 0x3000 is not. */
  lemma LinkExample(h: Host, st: State)
    requires h.DrefAlwaysSucceeds()
    ensures
      var ldrs := [Ldr(0x1000, 0x2000), Ldr(0x1004, 0x2000), Ldr(0x1008, 0x3000)];
      LinkDataReferences(h, st, Image(map[], [Span(0x2000, 6)]), ldrs).1 == {0x1000, 0x1004}
  {
    var ldrs := [Ldr(0x1000, 0x2000), Ldr(0x1004, 0x2000), Ldr(0x1008, 0x3000)];
    var spans := [Span(0x2000, 6)];
    assert ldrs[0].target == spans[0].ea && ldrs[0].addr != spans[0].ea;
    assert ldrs[1].target == spans[0].ea && ldrs[1].addr != spans[0].ea;
    assert ldrs[0].addr in Linkable(spans, ldrs);
    assert ldrs[1].addr in Linkable(spans, ldrs);
    assert Linkable(spans, ldrs) == {0x1000, 0x1004};
  }
}
